=== FILE: README.md ===
# Grammar analysis and table-driven parsing, modelled in Dafny

This project models the parsing toolkit in `sintacticoLL.py` and
`sintacticoLR.py`.

The LL(1) side has five parts:

- A grammar record built one declaration at a time.
- FIRST sets computed over production right-hand sides, using the grammar's declared nullable nonterminals.
- FOLLOW sets seeded with the end marker `$` for the start symbol.
- An LL(1) table keyed by (nonterminal, terminal or `$`).
- A stack-based predictive recogniser.

The LR side has three parts:

- Dotted items.
- A shift-reduce driver that pushes (symbol, state) pairs onto a flat stack and pops 2·|rhs| entries on a reduce.
- The LR grammar record, whose `add_production` records symbols as it appends.

The model is functional. Symbols, productions, items, actions and
configurations are immutable datatypes. FIRST and FOLLOW are least fixpoints
computed by full passes until a pass adds nothing, with the set of pairs still
missing from a finite universe as the termination measure. Each parser is a
step function over a stack and a cursor into a read-only token sequence, run
under a step bound (`fuel`).

Modules, one per file:

- `Wrappers` (`wrappers.dfy`): `Option` and `Result`.
- `Symbols` (`symbols.dfy`): `Symbol = Terminal | NonTerminal`, and `Mark = Tok | Epsilon | EndMarker`, the elements of FIRST sets, FOLLOW sets and table columns. It also holds `Production`, the relation type `Rel` used for FIRST and FOLLOW, and `Lookahead`.
- `Grammars` (`grammars.dfy`): the LL grammar record and its `add_*` operations.
- `First` (`first.dfy`): FIRST.
- `Follow` (`follow.dfy`): FOLLOW.
- `LLTable` (`lltable.dfy`): the LL(1) table and its conflict-reporting builder.
- `Predictive` (`predictive.dfy`): the predictive recogniser and its soundness proof.
- `Recognise` (`recognise.dfy`): the pipeline FIRST → FOLLOW → table → parse.
- `LRItems` (`lritems.dfy`): dotted items.
- `ShiftReduce` (`shiftreduce.dfy`): the shift-reduce driver.
- `LRGrammars` (`lrgrammars.dfy`): the LR grammar record.

## Modelling decisions

- **Symbols are tagged.** The tag on a symbol replaces the source's test "is this name a declared terminal". The empty right-hand side is the epsilon production, which the source writes as `["epsilon"]`. `epsilon` and `$` are their own marks, so they cannot collide with a token name.
- **Nullability is declared.** It is the grammar's declared `nullable` set, filled by `add_nullable` (sintacticoLL.py:26, 145-146), restricted to nonterminals. The source never computes nullability.
- **FIRST of a sequence.** Each symbol contributes its FIRST set without `epsilon`. The walk stops after the first symbol that is not nullable. `epsilon` is added exactly when every symbol is nullable. The source instead copies `epsilon` from a symbol's FIRST set and has no other way to produce it.
- **FIRST is a fixpoint, not a recursion.** It is a least fixpoint over all nonterminals. The source recurses, skips only directly left-recursive alternatives (sintacticoLL.py:22-23), and does not terminate on indirect left recursion.
- **The FOLLOW rule uses the whole suffix.** An occurrence `A -> α B β` gives B the set FIRST(β) without `epsilon`, plus FOLLOW(A) when β is nullable or empty. The source looks only at the symbol right after B (sintacticoLL.py:45-60), and it tests `epsilon` in that symbol's FIRST set where the model uses the declared nullable set. The two rules agree when β is empty. They also agree when β is a single nonterminal X, X is not B, and X is declared nullable exactly when `epsilon` is in FIRST(X). They differ when X is B itself and B is not nullable. The first B's contribution then includes FOLLOW(A) in the source but not in the model, which shows at the set level for `A -> B B c` (see Findings). They also differ when `epsilon` is in FIRST(X) but X is not declared nullable.
- **FOLLOW runs to a fixpoint.** The source updates the stored set in place, so `updated` stays false and its loop always stops after one pass (sintacticoLL.py:48-64). The model iterates until a pass changes nothing.
- **The table builder iterates productions.** It goes through the productions of declared nonterminals; the source iterates the dictionary's keys instead (sintacticoLL.py:78-80). The `epsilon` mark never becomes a column. A second, different production for a filled cell is a `Conflict` naming both productions and the column. The source silently overwrites the cell.
- **The recogniser's start state.** It starts from the stack `[$, start]` over a token sequence. Reaching `$` on top with the lookahead at the end accepts. The source never pushes the start symbol (sintacticoLL.py:92). It also slices a character string, and it raises `IndexError` when matching `$` against `$`.
- **The LR driver takes its tables as input.** It reads an action table of `Shift(state) | Reduce(production) | Accept` and a separate goto table. An entry carries what the source looks up on an item: `Shift(state)` names the state to push, so the undefined `item.state` does not arise; `Accept` finishes, so the undefined `is_accept_item` does not arise. Each other configuration that the source reaches as an exception is a result value:
  - popping from an empty list;
  - a missing goto entry;
  - a shift past the end of the input.

## Model

| member | source | states |
|---|---|---|
| Grammars.EmptyGrammar | sintacticoLL.py:123-128 | A new grammar has no symbols, no productions, no start symbol and nothing nullable. |
| Grammars.AddNonterminal | sintacticoLL.py:130-131 | The name joins the nonterminals; nothing else changes. |
| Grammars.AddTerminal | sintacticoLL.py:133-134 | The name joins the terminals; nothing else changes. |
| Grammars.AddProduction | sintacticoLL.py:136-140 | The right-hand side is appended after the earlier alternatives of its nonterminal, creating the entry when absent. Other nonterminals keep their alternatives. The production set grows by exactly this production. No nonterminal ever has an empty alternative list. |
| Grammars.SetStartSymbol | sintacticoLL.py:142-143 | The start symbol becomes the given name; nothing else changes. |
| Grammars.AddNullable | sintacticoLL.py:145-146 | The nullable symbols become the old ones plus this nonterminal; nothing else changes. |
| First.FirstOfSym | sintacticoLL.py:18-19 | FIRST of a terminal is exactly the singleton of that terminal. |
| First.FirstOfSeq | sintacticoLL.py:24-27 | FIRST of the empty sequence is {`epsilon`}. The first symbol always contributes its FIRST set without `epsilon`. If it is not nullable, nothing else is added. `epsilon` is in the result only when every symbol is nullable. |
| First.FirstOfSeqMembers | sintacticoLL.py:21-27 | `epsilon` is in FIRST of a sequence iff every symbol is nullable. Any other mark is in it iff it is in FIRST of some symbol all of whose predecessors are nullable. |
| First.FirstOfSeqStops | sintacticoLL.py:24-27 | After a non-nullable symbol, later symbols never contribute, and `epsilon` is absent. |
| First.FirstFix | sintacticoLL.py:12-14 | Iteration terminates on any grammar, including left-recursive ones. It only grows the relation, stays in the finite universe, and ends at a relation a further pass leaves unchanged. A finished relation is returned unchanged on re-query. |
| First.ComputeFirst | sintacticoLL.py:8-10 | The FIRST relation of the grammar is closed under the production rule. |
| First.FirstFixLeast | sintacticoLL.py:12-30 | The iteration adds nothing outside any relation closed under the production rule. |
| First.FirstEquation | sintacticoLL.py:16-30 | `m` is in FIRST(A) iff some alternative of A has `m` in FIRST of its right-hand side. |
| First.First | sintacticoLL.py:12-30 | The query `first(symbol)`: a terminal yields exactly itself. A nonterminal yields the union of FIRST over its alternatives. |
| First.LeftRecursionAddsNothing | sintacticoLL.py:22-23 | An alternative `A -> A β` adds nothing to FIRST(A) when A is not nullable, so skipping it is harmless in that case. |
| Follow.FollowFix | sintacticoLL.py:38-67 | FOLLOW sets only grow. The loop stops exactly at a relation that a full pass leaves unchanged, and a relation a pass leaves unchanged is returned as is. |
| Follow.FollowStep | sintacticoLL.py:41-64 | One pass of the FOLLOW loop over every occurrence of a declared nonterminal in a production of a declared nonterminal. It never removes a mark, and each occurrence's contribution, computed from the sets before the pass, is added to that nonterminal's set. |
| Follow.ComputeFollow | sintacticoLL.py:32-42 | It fails when the start symbol is unset or undeclared. Otherwise it fails when some declared nonterminal has no alternatives, the lookup that raises at line 42; the error names exactly those nonterminals, which for a builder-made grammar are those with an empty alternative list. It succeeds in every other case. FOLLOW(start) holds `$`. `epsilon` never enters a FOLLOW set. Only declared nonterminals have FOLLOW marks. A further pass changes nothing. |
| Follow.FollowRules | sintacticoLL.py:41-60 | For an occurrence of B in `A -> α B β`, FOLLOW(B) gains FIRST(β) minus `epsilon`, and so FIRST of the next symbol minus `epsilon`. It gains FOLLOW(A) when β is nullable, and when B ends the production. |
| Follow.FollowEquation | sintacticoLL.py:36-64 | `m` is in FOLLOW(B) iff it is `$` for the start symbol or some occurrence of B contributes it. |
| Follow.FixEquation | sintacticoLL.py:36-64 | The fixpoint reached from any seed holds exactly the seed plus the contribution of every occurrence to it. |
| Follow.Gain | sintacticoLL.py:45-60 | The corrected contribution of an occurrence: at the end of the production it is exactly FOLLOW(lhs). |
| Follow.GainCases | sintacticoLL.py:50-60 | The corrected contribution symbol by symbol. A terminal successor contributes exactly itself. Any successor contributes its FIRST set without `epsilon`. A successor that is not nullable contributes nothing more. |
| Follow.GainAsWritten | sintacticoLL.py:45-60 | The source's contribution rule. At the end of the production, or before a terminal, it is exactly FOLLOW(lhs). Before a nonterminal it contains that symbol's FIRST set without `epsilon`. It also contains FOLLOW(lhs) when that FIRST set holds `epsilon` or the successor repeats the symbol. |
| Follow.SuccessorTerminalGained | sintacticoLL.py:50-57 | A terminal right after a nonterminal is in that occurrence's contribution. |
| Follow.AsWrittenLosesTerminalSuccessor | sintacticoLL.py:50-54 | For `A -> B b` with FOLLOW(A) = {$}, the source's rule gives B only `$`, while the corrected rule gives it `b`. |
| Follow.AsWrittenRepeatedSymbolLeaks | sintacticoLL.py:59-60 | For `A -> B B c` with B not nullable, the source's rule gives the first B the end marker; the corrected rule gives only FIRST(B). |
| LLTable.InitTable | sintacticoLL.py:70-76 | After initialisation every (nonterminal, terminal) and (nonterminal, `$`) cell exists and is empty, and no other cell exists. |
| LLTable.Predict | sintacticoLL.py:80-89 | A production's columns: every mark of FIRST(rhs) except `epsilon`, plus FOLLOW(lhs) when `epsilon` is in FIRST(rhs), and nothing else. `epsilon` is never a column when FOLLOW(lhs) has none. |
| LLTable.Insert | sintacticoLL.py:82-89 | Inserting into an empty, absent or same-production cell fills it. A cell holding a different production is a conflict naming both productions. A filled cell never changes. |
| LLTable.InsertAsWritten | sintacticoLL.py:83 | The source's assignment: the last production written to a cell wins. |
| LLTable.OverwriteLosesEarlierProduction | sintacticoLL.py:82-89 | Two different productions for one cell: as written the first is lost; `Insert` reports the conflict. |
| LLTable.BuildTable | sintacticoLL.py:69-89 | Success iff the grammar is LL(1). On success the table is the initial table with every placement made: FIRST(rhs) columns, plus FOLLOW(lhs) columns when rhs is nullable. On failure, two different productions both ask for the named cell. |
| LLTable.ConflictRefutesLL1 | sintacticoLL.py:81-88 | When placing a production in a cell fails because the cell already holds a different production, both placements belong to the grammar's placements, which are therefore not functional: the grammar is not LL(1). |
| LLTable.BuiltTablePlacement | sintacticoLL.py:78-89 | A production is placed at (A, t) for every t in FIRST(rhs) other than `epsilon`, and, when `epsilon` is in FIRST(rhs), for every t in FOLLOW(A). Every filled cell holds a production of its own nonterminal. |
| LLTable.TableDetermined | sintacticoLL.py:69-89 | Two tables built from the same placements are equal, whatever order the cells were filled in. |
| Predictive.Push | sintacticoLL.py:110-113 | Expansion pushes the right-hand side reversed, so its first symbol ends on top; an epsilon production pushes nothing. |
| Predictive.Step | sintacticoLL.py:96-117 | A match pops one symbol and advances the cursor by exactly one. An expansion pops the nonterminal and pushes its cell's production reversed. Acceptance happens iff `$` is on top and the lookahead is `$`. An empty cell, a terminal mismatch, or `$` on top with input left is an error. |
| Predictive.Run | sintacticoLL.py:96-119 | With no fuel the run is out of fuel. A rejecting first move rejects the run with that error, and an accepting first move accepts with no production applied. An accepted run applied fewer productions than its fuel. |
| Predictive.RunFuelMonotone | sintacticoLL.py:96-119 | A run that accepts or rejects gives the same outcome with any larger fuel. |
| Predictive.RunReachesAccept | sintacticoLL.py:96-119 | Progress: if n matches and expansions lead to a configuration that accepts, and n is less than the fuel, the run accepts. |
| Predictive.Parse | sintacticoLL.py:91-119 | The first move expands the start symbol. An accepted parse applies at least one production, and the first one is the cell of the start symbol and the first lookahead. An empty cell there rejects at once with `NoEntry`. |
| Predictive.ParseAsWritten | sintacticoLL.py:92-94 | With only the end marker on the stack, an input is accepted iff it is empty (given any fuel), and then no production is applied. |
| Predictive.StepPreservesForm | sintacticoLL.py:99-113 | A match leaves the sentential form (input read + stack) unchanged. An expansion rewrites it by one leftmost step with the applied production. Acceptance means the form is exactly the input. |
| Predictive.RunSound | sintacticoLL.py:96-119 | When a run accepts, the productions it applied derive the input from the configuration's form by leftmost steps, and each comes from a table cell. |
| Predictive.ParseSound | sintacticoLL.py:91-119 | An accepted input is derived from the start symbol by the recorded leftmost derivation. |
| Predictive.AsWrittenRejectsNonEmptyInput | sintacticoLL.py:92-115 | With only `$` on the stack, every non-empty input is rejected at position 0. |
| Predictive.SingleTokenExample | sintacticoLL.py:91-119 | For `E -> id`, the corrected parser accepts `id` with the derivation `[E -> id]`; as written it rejects. |
| Recognise.RecogniseTokens | sintacticoLL.py:8-119 | Building fails with a grammar error iff the start symbol is unusable or a declared nonterminal has no alternatives. Otherwise it fails with a conflict iff the grammar is not LL(1). An accepted input is derived from the start symbol by leftmost steps using only the grammar's productions. |
| Recognise.BuiltTableCells | sintacticoLL.py:78-89 | Every filled cell of a built table holds a production of the grammar whose left-hand side is the cell's nonterminal. |
| LRItems.NextSymbol | sintacticoLR.py:6-8 | Writing #rhs for the length of the right-hand side: the symbol after the dot is `rhs[dot]` when dot < #rhs, and none otherwise. The dot ranges over the body only; the source indexes the whole `[head, body...]` list (sintacticoLR.py:7-8, 11), where dot 0 names the head. |
| LRItems.IsReduceItem | sintacticoLR.py:10-11 | A reduce item has no next symbol. For 0 ≤ dot ≤ #rhs, an item is a reduce item iff it has no next symbol. The dot ranges over the body only; the source indexes the whole `[head, body...]` list (sintacticoLR.py:7-8, 11), where dot 0 names the head. |
| LRItems.IsShiftItem | sintacticoLR.py:10-14 | An item is a shift item iff dot < #rhs. For 0 ≤ dot ≤ #rhs it is a shift item iff it is not a reduce item (dot = #rhs). |
| LRItems.Shift | sintacticoLR.py:16-17 | The production is kept and the dot moves by exactly one; a shift item stays within its right-hand side. |
| LRItems.RemainingIsSuffix | sintacticoLR.py:6-17 | Reading the next symbol and shifting until a reduce item walks exactly the rest of the right-hand side, in order. |
| ShiftReduce.Expected | sintacticoLR.py:39-41 | The lookaheads reported with an "unexpected token" error (see `ShiftReduce.Step`) are exactly those with an action in the state. The source's error names only the current token; the state, cursor and expected set are added by the model. |
| ShiftReduce.Step | sintacticoLR.py:37-53 | The move is the one the top state and lookahead select. A missing entry is an "unexpected token" error: it names the top state, the lookahead, the cursor and the expected lookaheads, and nothing changes. The source's error carries only the token; the other three are the model's additions. Accept finishes. Shift on a token pushes exactly the token and the next state and advances the input by one; Shift at the end of the input is `ShiftPastEnd`. Reduce with more than 2·#rhs entries and a goto entry for the exposed state pops exactly 2·#rhs, pushes the left-hand side and the goto state, and consumes no input. With too few entries it is `StackUnderflow`, and with no goto entry it is `MissingGoto`. A stack with no state on top is `CorruptStack`. |
| ShiftReduce.Run | sintacticoLR.py:37-54 | With no fuel the run is out of fuel. A finishing first move accepts with an empty trace at the starting configuration, and a failing first move rejects with that error there. An accepted run ends at a configuration whose next move is Accept, with fewer recorded actions than its fuel. A rejected run reports the error of the move from the configuration it stopped at. |
| ShiftReduce.RunFuelMonotone | sintacticoLR.py:37-54 | A run that accepts or rejects gives the same outcome with any larger fuel. |
| ShiftReduce.RunReachesAccept | sintacticoLR.py:37-54 | Progress: if n moves lead to a configuration whose next move is Accept, and n is less than the fuel, the run accepts and ends at that configuration. |
| ShiftReduce.Parse | sintacticoLR.py:33-54 | parse starts from state 0 at the first token. If state 0 has no action for the first token, the parse is rejected at once with the "unexpected token" error. An accepted parse ends where the top state and the lookahead select Accept. |
| ShiftReduce.SingleTokenRun | sintacticoLR.py:33-54 | For `S -> a` with its LR(0) table, `a` is accepted by a shift, then a reduce by `S -> a`, leaving state 0, S and state 2 on the stack. |
| ShiftReduce.StepKeepsDiscipline | sintacticoLR.py:42-52 | From an alternating state/symbol stack a move never finds a corrupt stack. It keeps the stack alternating and its bottom entry in place, and changes its height by +2 for a shift and by 2 − 2·#rhs for a reduce. The cursor advances exactly on a shift. |
| ShiftReduce.RunKeepsDiscipline | sintacticoLR.py:33-54 | An accepted run ends on an alternating stack with the same bottom. Its height has changed by the total growth of the recorded actions, and one token has been read per shift. A rejection never reports a corrupt stack. |
| ShiftReduce.ParseDiscipline | sintacticoLR.py:33-54 | Starting from state 0, an accepted parse keeps state 0 at the bottom and has 1 + total growth entries. It has read exactly as many tokens as it shifted. |
| LRGrammars.EmptyLRGrammar | sintacticoLR.py:59-63 | A new LR grammar has no symbols, no productions and no start symbol. |
| LRGrammars.ElemNames | sintacticoLR.py:69-73 | A body element contributes its own name, or every name of its nested list. |
| LRGrammars.BodyNames | sintacticoLR.py:68-73 | The names of a body, nested lists flattened one level, are those of its elements. |
| LRGrammars.AddProduction | sintacticoLR.py:65-74 | The production is appended at the end and earlier ones are unchanged. The head is added to the nonterminals. Every body name, nested lists flattened one level, is added to the terminals. Every stored production stays recorded. |

## Left out

- `sintactico.py` is not part of this model. It is a thin wrapper over NLTK's `CFG.fromstring`, `ChartParser`, `word_tokenize` and `pretty_print`, a foreign library.
- The example grammars, the demo calls and every `print` (sintacticoLL.py:149-198, sintacticoLR.py:77-100, sintacticoLL.py:118, sintacticoLR.py:55) are left out: they are I/O and example state, not logic.
- The LR table builder (sintacticoLR.py:25-31) is left out. It treats raw productions as items and produces no usable table. The driver takes its action and goto tables as input instead. Closure, goto, the canonical collection and SLR(1) table construction are not in the code and are not modelled.
- Computed nullability is left out: the code has none. Nullability is the declared set.
- Grammar validation is left out, apart from the errors the code raises in FOLLOW: a start symbol that is unset or undeclared, and a declared nonterminal with no alternatives (`Follow.ComputeFollow`). The model does not reject undeclared right-hand-side names; see the next line.
- First.ComputeFirst: FIRST is total. The FIRST relation is computed for every name that has alternatives, declared or not, as the source does for such a name. The source raises `KeyError` at sintacticoLL.py:21, reached from line 10, 25 or 56, for any name that is neither a declared terminal nor has alternatives. The model instead does the following:
  - A nonterminal with no alternatives, declared or not, gets an empty FIRST set.
  - A symbol tagged as a terminal gets FIRST = {itself} whether or not it is declared.

  The pipeline in `Recognise` reports a declared nonterminal with no alternatives through `Follow.ComputeFollow`'s `MissingAlternatives` error before any table is built. Undeclared names on a right-hand side are not reported.
- First.First: directly left-recursive alternatives `A -> A β` are kept; the source skips them (sintacticoLL.py:22-23). The two agree when A is not nullable (`First.LeftRecursionAddsNothing`). For a declared-nullable A the model also puts FIRST(β) into FIRST(A). For example, `A -> A b | ε` gives FIRST(A) = {b, `epsilon`}, where the source gives {`epsilon`}. The model follows the usual definition of FIRST here.
- Predictive.ParseAsWritten: only the stack initialisation of sintacticoLL.py:92 is kept as written. Moves and acceptance are those of `Predictive.Step`, so the empty input is accepted, where the source raises `IndexError` after matching `$` against `$` (sintacticoLL.py:99-102).
- Python mutable-set aliasing, string slicing, `ValueError` and the caller-visible `input_tokens.append("$")` are left out. They are replaced by immutable values, a cursor, and result datatypes.
- Predictive.ParseSound: soundness only. Completeness is not proved: the claim that every input derivable from a grammar with an LL(1) table is accepted given enough fuel.
- ShiftReduce.RunKeepsDiscipline: states stack discipline and accounting only. No derivation property is proved, because the table is an arbitrary input and the driver does not check that the popped symbols match the production.
- ShiftReduce.Step: a reduce pops 2·|rhs| entries, two per body symbol. The source pops `2 * len(item.production)` (sintacticoLR.py:48) and reads `item.production[0]` as the head (line 51). On the `[head, body...]` shape that `add_production` handles (sintacticoLR.py:66-68), that pops 2·(|body| + 1) entries. On the nested shape of the example grammar (sintacticoLR.py:80-85) it pops 4 whatever the body. The model pops by the body length, which is what the stack layout needs.
- Predictive.Step: the source compares stack symbols and input characters as plain strings. The model matches a terminal only against a token of the same name, never a nonterminal.

## Findings

| source | as written | input that shows it | evidently intended | confidence | as-written member | corrected member |
|---|---|---|---|---|---|---|
| sintacticoLL.py:50-54 | A nonterminal followed by a terminal gains FOLLOW(lhs) | `A -> B b` with FOLLOW(A) = {$}: B gains `$` and not `b` | B gains the terminal `b` | high, not executed | Follow.GainAsWritten, Follow.AsWrittenLosesTerminalSuccessor | Follow.SuccessorTerminalGained, Follow.FollowRules |
| sintacticoLL.py:59-60 | A nonterminal followed by itself gains FOLLOW(lhs) even when not nullable | `A -> B B c`, B not nullable, FIRST(B) = {b}, FOLLOW(A) = {$}: the first B gains `$` | the first B gains FIRST(B c) = {b} only | high, not executed | Follow.GainAsWritten, Follow.AsWrittenRepeatedSymbolLeaks | Follow.FollowEquation |
| sintacticoLL.py:83 | A table cell is overwritten by the last production assigned to it | two different productions placed in one cell | the second placement is a conflict error | high, not executed | LLTable.InsertAsWritten, LLTable.OverwriteLosesEarlierProduction | LLTable.Insert, LLTable.BuildTable |
| sintacticoLL.py:92 | The parse stack starts as `["$"]` without the start symbol | grammar `E -> id`, input `id`: rejected at the first move | the stack starts as `[$, E]` and `id` is accepted | high, not executed | Predictive.ParseAsWritten, Predictive.AsWrittenRejectsNonEmptyInput | Predictive.ParseSound, Predictive.SingleTokenExample |

=== FILE: first.dfy ===
/** FIRST sets (sintacticoLL.py:8-30), computed as the least fixpoint of
    the production rule over all nonterminals at once, so left-recursive
    and mutually recursive grammars terminate. */
module First {
  import opened Symbols
  import opened Grammars

  /** FIRST of one symbol, read from the current FIRST relation: a terminal
      begins only itself. */
  function FirstOfSym(R: Rel, s: Symbol): (r: set<Mark>)
    ensures s.Terminal? ==> r == {Tok(s.name)}
    ensures s.NonTerminal? ==> forall m :: m in r <==> (s.name, m) in R
  {
    if s.Terminal? then {Tok(s.name)} else Image(R, s.name)
  }

  /** FIRST of a symbol sequence: walk left to right adding each symbol's
      FIRST without `epsilon`, stop after the first symbol not declared
      nullable, and add `epsilon` when every symbol was nullable. */
  function FirstOfSeq(g: Grammar, R: Rel, alpha: seq<Symbol>): (r: set<Mark>)
    ensures |alpha| == 0 ==> r == {Epsilon}
    ensures |alpha| > 0 ==> FirstOfSym(R, alpha[0]) - {Epsilon} <= r
    ensures |alpha| > 0 && !Nullable(g, alpha[0]) ==> r == FirstOfSym(R, alpha[0]) - {Epsilon}
    ensures Epsilon in r ==> forall j :: 0 <= j < |alpha| ==> Nullable(g, alpha[j])
    decreases |alpha|
  {
    if |alpha| == 0 then {Epsilon}
    else
      (FirstOfSym(R, alpha[0]) - {Epsilon})
      + (if Nullable(g, alpha[0]) then FirstOfSeq(g, R, alpha[1..]) else {})
  }

  /** Reference reading of `FirstOfSeq`: `epsilon` exactly when the whole
      sequence is nullable, and any other mark exactly when it is in FIRST
      of some symbol all of whose predecessors are nullable. */
  lemma {:induction false} FirstOfSeqMembers(g: Grammar, R: Rel, alpha: seq<Symbol>, m: Mark)
    ensures m == Epsilon ==>
      (m in FirstOfSeq(g, R, alpha) <==> forall j :: 0 <= j < |alpha| ==> Nullable(g, alpha[j]))
    ensures m != Epsilon ==>
      (m in FirstOfSeq(g, R, alpha) <==>
        exists i :: 0 <= i < |alpha| && m in FirstOfSym(R, alpha[i])
                    && forall j :: 0 <= j < i ==> Nullable(g, alpha[j]))
    decreases |alpha|
  {
    if |alpha| > 0 {
      FirstOfSeqMembers(g, R, alpha[1..], m);
      if m == Epsilon {
        if forall j :: 0 <= j < |alpha[1..]| ==> Nullable(g, alpha[1..][j]) {
          assert forall j :: 1 <= j < |alpha| ==> alpha[j] == alpha[1..][j - 1];
        }
      } else {
        if m in FirstOfSeq(g, R, alpha) && m !in FirstOfSym(R, alpha[0]) {
          var i :| 0 <= i < |alpha[1..]| && m in FirstOfSym(R, alpha[1..][i])
                   && forall j :: 0 <= j < i ==> Nullable(g, alpha[1..][j]);
          assert alpha[i + 1] == alpha[1..][i];
          assert forall j :: 1 <= j < i + 1 ==> alpha[j] == alpha[1..][j - 1];
        }
        if exists i :: 0 <= i < |alpha| && m in FirstOfSym(R, alpha[i])
                       && forall j :: 0 <= j < i ==> Nullable(g, alpha[j]) {
          var i :| 0 <= i < |alpha| && m in FirstOfSym(R, alpha[i])
                   && forall j :: 0 <= j < i ==> Nullable(g, alpha[j]);
          if i > 0 {
            assert alpha[1..][i - 1] == alpha[i];
            assert forall j :: 0 <= j < i - 1 ==> alpha[1..][j] == alpha[j + 1];
          }
        }
      }
    }
  }

  /** Symbols after the first non-nullable one never contribute. */
  lemma {:induction false} FirstOfSeqStops(g: Grammar, R: Rel, alpha: seq<Symbol>, i: nat)
    requires i < |alpha| && !Nullable(g, alpha[i])
    ensures FirstOfSeq(g, R, alpha) == FirstOfSeq(g, R, alpha[..i + 1])
    ensures Epsilon !in FirstOfSeq(g, R, alpha)
    decreases i
  {
    if i > 0 && Nullable(g, alpha[0]) {
      FirstOfSeqStops(g, R, alpha[1..], i - 1);
      assert alpha[..i + 1][1..] == alpha[1..][..i];
    }
    if i == 0 {
      assert alpha[..1][0] == alpha[0];
    }
  }

  /** More FIRST facts in, more FIRST marks out. */
  lemma {:induction false} FirstOfSeqMonotone(g: Grammar, R: Rel, S: Rel, alpha: seq<Symbol>)
    requires R <= S
    ensures FirstOfSeq(g, R, alpha) <= FirstOfSeq(g, S, alpha)
    decreases |alpha|
  {
    if |alpha| > 0 {
      FirstOfSeqMonotone(g, R, S, alpha[1..]);
    }
  }

  /** FIRST of a sequence only holds `epsilon`, marks already in the
      relation, and tokens written in the sequence. */
  lemma {:induction false} FirstOfSeqBound(g: Grammar, R: Rel, alpha: seq<Symbol>)
    ensures FirstOfSeq(g, R, alpha) <= Marks(R) + TokensOf(alpha) + {Epsilon}
    decreases |alpha|
  {
    if |alpha| > 0 {
      FirstOfSeqBound(g, R, alpha[1..]);
      TokensOfSuffix(alpha, 1);
    }
  }

  /** Every token written in some right-hand side of the grammar. */
  function RhsTokens(g: Grammar): (s: set<Mark>)
    ensures forall p :: p in Prods(g) ==> TokensOf(p.rhs) <= s
  {
    set p, t | p in Prods(g) && t in TokensOf(p.rhs) :: t
  }

  /** The only pairs a FIRST relation of `g` can ever hold. */
  function FirstUniverse(g: Grammar): Rel
  {
    set a, m | a in g.productions && m in RhsTokens(g) + {Epsilon} :: (a, m)
  }

  /** One full pass: every production `A -> alpha` adds FIRST(alpha) to
      FIRST(A); nothing is removed. */
  function FirstStep(g: Grammar, R: Rel): (r: Rel)
    ensures R <= r
  {
    R + set p, m | p in Prods(g) && m in FirstOfSeq(g, R, p.rhs) :: (p.lhs, m)
  }

  lemma FirstStepBounded(g: Grammar, R: Rel)
    requires R <= FirstUniverse(g)
    ensures FirstStep(g, R) <= FirstUniverse(g)
  {
    forall q | q in FirstStep(g, R) && q !in R
      ensures q in FirstUniverse(g)
    {
      var p, m :| p in Prods(g) && m in FirstOfSeq(g, R, p.rhs) && q == (p.lhs, m);
      FirstOfSeqBound(g, R, p.rhs);
      if m in Marks(R) {
        var a' :| (a', m) in R;
      }
    }
  }

  lemma {:induction false} FirstStepMonotone(g: Grammar, R: Rel, S: Rel)
    requires R <= S
    ensures FirstStep(g, R) <= FirstStep(g, S)
  {
    forall q | q in FirstStep(g, R) && q !in R
      ensures q in FirstStep(g, S)
    {
      var p, m :| p in Prods(g) && m in FirstOfSeq(g, R, p.rhs) && q == (p.lhs, m);
      FirstOfSeqMonotone(g, R, S, p.rhs);
    }
  }

  /** Repeats full passes from `R` until one adds nothing. Each pass that
      changes the relation adds a pair of the finite universe, so the
      iteration terminates whatever recursion the grammar has. */
  function FirstFix(g: Grammar, R: Rel): (r: Rel)
    requires R <= FirstUniverse(g)
    ensures R <= r <= FirstUniverse(g)
    ensures FirstStep(g, r) == r
    ensures FirstStep(g, R) == R ==> r == R
    decreases FirstUniverse(g) - R
  {
    FirstStepBounded(g, R);
    var next := FirstStep(g, R);
    if next == R then R
    else
      assert FirstUniverse(g) - next < FirstUniverse(g) - R by {
        var q :| q in next && q !in R;
      }
      FirstFix(g, next)
  }

  /** The FIRST relation of the grammar (compute_first_sets). */
  function ComputeFirst(g: Grammar): (r: Rel)
    ensures FirstStep(g, r) == r
    ensures r <= FirstUniverse(g)
  {
    FirstFix(g, {})
  }

  /** The iteration reaches no pair outside any relation closed under the
      production rule. */
  lemma {:induction false} FirstFixLeast(g: Grammar, R: Rel, S: Rel)
    requires R <= FirstUniverse(g) && R <= S && FirstStep(g, S) == S
    ensures FirstFix(g, R) <= S
    decreases FirstUniverse(g) - R
  {
    FirstStepMonotone(g, R, S);
    FirstStepBounded(g, R);
    var next := FirstStep(g, R);
    if next != R {
      assert FirstUniverse(g) - next < FirstUniverse(g) - R by {
        var q :| q in next && q !in R;
      }
      FirstFixLeast(g, next, S);
    }
  }

  /** The computed relation is exactly the FIRST equations' solution:
      `m` is in FIRST(A) iff some production `A -> alpha` has `m` in
      FIRST(alpha). */
  lemma FirstEquation(g: Grammar, a: string, m: Mark)
    ensures (a, m) in ComputeFirst(g) <==>
      exists p :: p in Prods(g) && p.lhs == a && m in FirstOfSeq(g, ComputeFirst(g), p.rhs)
  {
    var r := ComputeFirst(g);
    var S := set p, m' | p in Prods(g) && m' in FirstOfSeq(g, r, p.rhs) :: (p.lhs, m');
    assert S <= r by {
      assert FirstStep(g, r) == r;
    }
    forall q | q in FirstStep(g, S)
      ensures q in S
    {
      if q !in S {
        var p, m' :| p in Prods(g) && m' in FirstOfSeq(g, S, p.rhs) && q == (p.lhs, m');
        FirstOfSeqMonotone(g, S, r, p.rhs);
      }
    }
    FirstFixLeast(g, {}, S);
    if (a, m) in r {
      assert (a, m) in S;
    }
  }

  lemma FirstEquationAll(g: Grammar, a: string)
    ensures forall m :: (a, m) in ComputeFirst(g) <==>
      exists p :: p in Prods(g) && p.lhs == a && m in FirstOfSeq(g, ComputeFirst(g), p.rhs)
  {
    forall m ensures (a, m) in ComputeFirst(g) <==>
      exists p :: p in Prods(g) && p.lhs == a && m in FirstOfSeq(g, ComputeFirst(g), p.rhs)
    {
      FirstEquation(g, a, m);
    }
  }

  /** The memoised query `first(symbol)`: a terminal yields exactly itself,
      a nonterminal the union of FIRST over its alternatives. */
  function First(g: Grammar, s: Symbol): (r: set<Mark>)
    ensures s.Terminal? ==> r == {Tok(s.name)}
    ensures s.NonTerminal? ==> forall m :: m in r <==>
      exists p :: p in Prods(g) && p.lhs == s.name && m in FirstOfSeq(g, ComputeFirst(g), p.rhs)
  {
    if s.Terminal? then {Tok(s.name)}
    else
      FirstEquationAll(g, s.name);
      Image(ComputeFirst(g), s.name)
  }

  /** A left-recursive alternative `A -> A beta` of a non-nullable `A`
      adds nothing to FIRST(A); skipping it, as the source does, is
      harmless in exactly that case. */
  lemma LeftRecursionAddsNothing(g: Grammar, a: string, beta: seq<Symbol>)
    requires !Nullable(g, NonTerminal(a))
    ensures FirstOfSeq(g, ComputeFirst(g), [NonTerminal(a)] + beta) <= First(g, NonTerminal(a))
  {
    var r := ComputeFirst(g);
    var alpha := [NonTerminal(a)] + beta;
    assert alpha[0] == NonTerminal(a);
  }
}

=== FILE: follow.dfy ===
/** FOLLOW sets (sintacticoLL.py:32-67) as the least fixpoint of the
    FOLLOW rules, seeded with the end marker for the start symbol. */
module Follow {
  import opened Wrappers
  import opened Symbols
  import opened Grammars
  import opened First

  /** Why FOLLOW cannot be computed: the start symbol is unset or not a
      declared nonterminal, or some declared nonterminals have no
      alternatives at all (all of them are named). */
  datatype GrammarError =
    | MissingStartSymbol
    | UndeclaredStartSymbol(name: string)
    | MissingAlternatives(names: set<string>)

  /** The start symbol is set and declared. */
  predicate StartDeclared(g: Grammar)
  {
    g.start.Some? && g.start.value in g.nonterminals
  }

  /** Every declared nonterminal has an entry among the alternatives. */
  predicate AlternativesDeclared(g: Grammar)
  {
    forall a :: a in g.nonterminals ==> a in g.productions
  }

  /** What one occurrence of a nonterminal at `rhs[i]` in a production of
      `lhs` contributes to its FOLLOW set: FIRST of what comes after it,
      without `epsilon`, and FOLLOW(lhs) when what comes after it is
      nullable (in particular when nothing comes after it). */
  function Gain(g: Grammar, first: Rel, follow: Rel, lhs: string, rhs: seq<Symbol>, i: nat)
    : (r: set<Mark>)
    requires i < |rhs|
    ensures i + 1 == |rhs| ==> r == Image(follow, lhs)
  {
    var beta := FirstOfSeq(g, first, rhs[i + 1..]);
    (beta - {Epsilon}) + (if Epsilon in beta then Image(follow, lhs) else {})
  }

  /** The contribution read symbol by symbol: a terminal successor
      contributes exactly itself, any successor contributes its FIRST set
      without `epsilon`, and a successor that is not nullable contributes
      nothing else. */
  lemma GainCases(g: Grammar, first: Rel, follow: Rel, lhs: string, rhs: seq<Symbol>, i: nat)
    requires i + 1 < |rhs|
    ensures rhs[i + 1].Terminal? ==> Gain(g, first, follow, lhs, rhs, i) == {Tok(rhs[i + 1].name)}
    ensures FirstOfSym(first, rhs[i + 1]) - {Epsilon} <= Gain(g, first, follow, lhs, rhs, i)
    ensures !Nullable(g, rhs[i + 1]) ==>
      Gain(g, first, follow, lhs, rhs, i) == FirstOfSym(first, rhs[i + 1]) - {Epsilon}
  {
    assert rhs[i + 1..][0] == rhs[i + 1];
  }

  /** The contribution as sintacticoLL.py:50-60 computes it: a terminal
      successor, like the end of the production, contributes FOLLOW(lhs);
      a nonterminal successor contributes its FIRST set, plus FOLLOW(lhs)
      when that set holds `epsilon` or the successor repeats the symbol. */
  function GainAsWritten(first: Rel, follow: Rel, lhs: string, rhs: seq<Symbol>, i: nat): (r: set<Mark>)
    requires i < |rhs|
    ensures i + 1 == |rhs| ==> r == Image(follow, lhs)
    ensures i + 1 < |rhs| && rhs[i + 1].Terminal? ==> r == Image(follow, lhs)
    ensures i + 1 < |rhs| && rhs[i + 1].NonTerminal? ==> FirstOfSym(first, rhs[i + 1]) - {Epsilon} <= r
    ensures i + 1 < |rhs| && rhs[i + 1].NonTerminal?
            && (Epsilon in FirstOfSym(first, rhs[i + 1]) || rhs[i + 1] == rhs[i]) ==>
      Image(follow, lhs) <= r
  {
    if i + 1 >= |rhs| || rhs[i + 1].Terminal? then Image(follow, lhs)
    else
      var f := FirstOfSym(first, rhs[i + 1]);
      (f - {Epsilon}) + (if Epsilon in f || rhs[i + 1] == rhs[i] then Image(follow, lhs) else {})
  }

  /** `rhs[i]` of a production of a declared nonterminal is itself a
      declared nonterminal: the positions the FOLLOW pass updates. */
  predicate Occurrence(g: Grammar, p: Production, i: nat)
  {
    p in Prods(g) && p.lhs in g.nonterminals && i < |p.rhs|
    && p.rhs[i].NonTerminal? && p.rhs[i].name in g.nonterminals
  }

  /** One full pass over every occurrence: nothing is removed, and each
      occurrence's contribution, computed from the sets before the pass,
      is added to its nonterminal's set. */
  function FollowStep(g: Grammar, first: Rel, R: Rel): (r: Rel)
    ensures R <= r
    ensures forall p, i: nat, m ::
      Occurrence(g, p, i) && m in Gain(g, first, R, p.lhs, p.rhs, i) ==> (p.rhs[i].name, m) in r
  {
    R + set p, i: nat, m | p in Prods(g) && p.lhs in g.nonterminals && i < |p.rhs|
                           && p.rhs[i].NonTerminal? && p.rhs[i].name in g.nonterminals
                           && m in Gain(g, first, R, p.lhs, p.rhs, i)
                        :: (p.rhs[i].name, m)
  }

  /** Marks a FOLLOW set may hold: tokens and the end marker, never
      `epsilon`. */
  function FollowMarks(g: Grammar, first: Rel): (s: set<Mark>)
    ensures Epsilon !in s
  {
    (Marks(first) + RhsTokens(g) - {Epsilon}) + {EndMarker}
  }

  function FollowUniverse(g: Grammar, first: Rel): Rel
  {
    set a, m | a in g.nonterminals && m in FollowMarks(g, first) :: (a, m)
  }

  lemma GainBounded(g: Grammar, first: Rel, R: Rel, p: Production, i: nat)
    requires R <= FollowUniverse(g, first)
    requires p in Prods(g) && i < |p.rhs|
    ensures Gain(g, first, R, p.lhs, p.rhs, i) <= FollowMarks(g, first)
  {
    FirstOfSeqBound(g, first, p.rhs[i + 1..]);
    TokensOfSuffix(p.rhs, i + 1);
    forall m | m in Image(R, p.lhs)
      ensures m in FollowMarks(g, first)
    {
      assert (p.lhs, m) in FollowUniverse(g, first);
    }
  }

  lemma FollowStepBounded(g: Grammar, first: Rel, R: Rel)
    requires R <= FollowUniverse(g, first)
    ensures FollowStep(g, first, R) <= FollowUniverse(g, first)
  {
    forall q | q in FollowStep(g, first, R) && q !in R
      ensures q in FollowUniverse(g, first)
    {
      var p, i: nat, m :| p in Prods(g) && p.lhs in g.nonterminals && i < |p.rhs|
                          && p.rhs[i].NonTerminal? && p.rhs[i].name in g.nonterminals
                          && m in Gain(g, first, R, p.lhs, p.rhs, i)
                          && q == (p.rhs[i].name, m);
      GainBounded(g, first, R, p, i);
    }
  }

  lemma {:induction false} FollowStepMonotone(g: Grammar, first: Rel, R: Rel, S: Rel)
    requires R <= S
    ensures FollowStep(g, first, R) <= FollowStep(g, first, S)
  {
    forall q | q in FollowStep(g, first, R) && q !in R
      ensures q in FollowStep(g, first, S)
    {
      var p, i: nat, m :| p in Prods(g) && p.lhs in g.nonterminals && i < |p.rhs|
                          && p.rhs[i].NonTerminal? && p.rhs[i].name in g.nonterminals
                          && m in Gain(g, first, R, p.lhs, p.rhs, i)
                          && q == (p.rhs[i].name, m);
      assert m in Gain(g, first, S, p.lhs, p.rhs, i);
    }
  }

  /** Repeats full passes until one changes no FOLLOW set. */
  function FollowFix(g: Grammar, first: Rel, R: Rel): (r: Rel)
    requires R <= FollowUniverse(g, first)
    ensures R <= r <= FollowUniverse(g, first)
    ensures FollowStep(g, first, r) == r
    ensures FollowStep(g, first, R) == R ==> r == R
    decreases FollowUniverse(g, first) - R
  {
    FollowStepBounded(g, first, R);
    var next := FollowStep(g, first, R);
    if next == R then R
    else
      assert FollowUniverse(g, first) - next < FollowUniverse(g, first) - R by {
        var q :| q in next && q !in R;
      }
      FollowFix(g, first, next)
  }

  lemma {:induction false} FollowFixLeast(g: Grammar, first: Rel, R: Rel, S: Rel)
    requires R <= FollowUniverse(g, first) && R <= S && FollowStep(g, first, S) == S
    ensures FollowFix(g, first, R) <= S
    decreases FollowUniverse(g, first) - R
  {
    FollowStepMonotone(g, first, R, S);
    FollowStepBounded(g, first, R);
    var next := FollowStep(g, first, R);
    if next != R {
      assert FollowUniverse(g, first) - next < FollowUniverse(g, first) - R by {
        var q :| q in next && q !in R;
      }
      FollowFixLeast(g, first, next, S);
    }
  }

  /** compute_follow_sets: fails when the start symbol is unset or not a
      declared nonterminal, and then when some declared nonterminal has no
      alternatives; otherwise the start symbol's FOLLOW set holds the end
      marker, no FOLLOW set holds `epsilon`, only declared nonterminals
      have FOLLOW marks, and a further pass changes nothing. */
  function ComputeFollow(g: Grammar, first: Rel): (r: Result<Rel, GrammarError>)
    ensures g.start.None? ==> r == Failure(MissingStartSymbol)
    ensures g.start.Some? && g.start.value !in g.nonterminals ==>
      r == Failure(UndeclaredStartSymbol(g.start.value))
    ensures r.Failure? && r.error.MissingAlternatives? ==>
      && StartDeclared(g) && r.error.names != {}
      && forall a :: a in r.error.names <==> a in g.nonterminals && a !in g.productions
    ensures r.Failure? && r.error.MissingAlternatives? && EntriesNonEmpty(g) ==>
      forall a :: a in r.error.names <==> a in g.nonterminals && Alternatives(g, a) == []
    ensures r.Success? <==> StartDeclared(g) && AlternativesDeclared(g)
    ensures r.Success? ==> EndMarker in Image(r.value, g.start.value)
    ensures r.Success? ==> forall a :: Epsilon !in Image(r.value, a)
    ensures r.Success? ==> forall a :: a !in g.nonterminals ==> Image(r.value, a) == {}
    ensures r.Success? ==> FollowStep(g, first, r.value) == r.value
  {
    if g.start.None? then Failure(MissingStartSymbol)
    else if g.start.value !in g.nonterminals then Failure(UndeclaredStartSymbol(g.start.value))
    else
      var missing := set a | a in g.nonterminals && a !in g.productions;
      if missing != {} then
        assert !AlternativesDeclared(g) by {
          var a :| a in missing;
        }
        Failure(MissingAlternatives(missing))
      else
        assert forall a :: a in g.nonterminals && a !in g.productions ==> a in missing;
        var seed := {(g.start.value, EndMarker)};
        assert seed <= FollowUniverse(g, first);
        var r := FollowFix(g, first, seed);
        assert forall a, m :: (a, m) in r ==> a in g.nonterminals && m != Epsilon by {
          forall a, m | (a, m) in r ensures a in g.nonterminals && m != Epsilon {
            assert (a, m) in FollowUniverse(g, first);
          }
        }
        Success(r)
  }

  /** The FOLLOW rules hold of the computed sets, for every occurrence of a
      nonterminal `B` at `rhs[i]` in a production `A -> rhs`. */
  lemma FollowRules(g: Grammar, first: Rel, p: Production, i: nat)
    requires StartDeclared(g) && AlternativesDeclared(g)
    requires Occurrence(g, p, i)
    ensures var follow := ComputeFollow(g, first).value;
      && Gain(g, first, follow, p.lhs, p.rhs, i) <= Image(follow, p.rhs[i].name)
      && FirstOfSeq(g, first, p.rhs[i + 1..]) - {Epsilon} <= Image(follow, p.rhs[i].name)
      && (i + 1 < |p.rhs| ==>
            FirstOfSym(first, p.rhs[i + 1]) - {Epsilon} <= Image(follow, p.rhs[i].name))
      && (Epsilon in FirstOfSeq(g, first, p.rhs[i + 1..]) ==>
            Image(follow, p.lhs) <= Image(follow, p.rhs[i].name))
      && (i + 1 == |p.rhs| ==> Image(follow, p.lhs) <= Image(follow, p.rhs[i].name))
  {
    var follow := ComputeFollow(g, first).value;
    forall m | m in Gain(g, first, follow, p.lhs, p.rhs, i)
      ensures m in Image(follow, p.rhs[i].name)
    {
      assert (p.rhs[i].name, m) in FollowStep(g, first, follow);
    }
    if i + 1 < |p.rhs| {
      assert p.rhs[i + 1..][0] == p.rhs[i + 1];
    }
  }

  /** The computed sets are exactly the solution of the FOLLOW equations:
      `m` is in FOLLOW(B) iff it is the end marker of the start symbol or
      some occurrence of `B` contributes it. */
  lemma FollowEquation(g: Grammar, first: Rel, b: string, m: Mark)
    requires StartDeclared(g) && AlternativesDeclared(g)
    ensures var follow := ComputeFollow(g, first).value;
      (b, m) in follow <==>
        || (b == g.start.value && m == EndMarker)
        || exists p, i: nat :: Occurrence(g, p, i) && p.rhs[i].name == b
                              && m in Gain(g, first, follow, p.lhs, p.rhs, i)
  {
    var seed := {(g.start.value, EndMarker)};
    assert seed <= FollowUniverse(g, first);
    FixEquation(g, first, seed, b, m);
  }

  /** The fixpoint reached from `seed` holds exactly the seed and what the
      occurrences contribute to it. */
  lemma FixEquation(g: Grammar, first: Rel, seed: Rel, b: string, m: Mark)
    requires seed <= FollowUniverse(g, first)
    ensures var follow := FollowFix(g, first, seed);
      (b, m) in follow <==>
        || (b, m) in seed
        || exists p, i: nat :: Occurrence(g, p, i) && p.rhs[i].name == b
                              && m in Gain(g, first, follow, p.lhs, p.rhs, i)
  {
    var follow := FollowFix(g, first, seed);
    var S := seed + set p, i: nat, m' | p in Prods(g) && p.lhs in g.nonterminals && i < |p.rhs|
                           && p.rhs[i].NonTerminal? && p.rhs[i].name in g.nonterminals
                           && m' in Gain(g, first, follow, p.lhs, p.rhs, i)
                        :: (p.rhs[i].name, m');
    assert S <= follow by {
      assert FollowStep(g, first, follow) == follow;
    }
    assert FollowStep(g, first, S) <= S;
    FollowFixLeast(g, first, seed, S);
    if (b, m) in follow {
      assert (b, m) in S;
    }
  }

  /** A terminal right after a nonterminal belongs to that nonterminal's
      FOLLOW set, whatever FOLLOW(lhs) holds. */
  lemma SuccessorTerminalGained(g: Grammar, first: Rel, follow: Rel, lhs: string, rhs: seq<Symbol>,
                                i: nat)
    requires i + 1 < |rhs| && rhs[i + 1].Terminal?
    ensures Tok(rhs[i + 1].name) in Gain(g, first, follow, lhs, rhs, i)
  {
    assert rhs[i + 1..][0] == rhs[i + 1];
  }

  /** As written, `A -> B b` with FOLLOW(A) = {$} gives B the end marker
      and not the terminal `b` that follows it. */
  lemma {:induction false} AsWrittenLosesTerminalSuccessor(g: Grammar, first: Rel)
    ensures var rhs := [NonTerminal("B"), Terminal("b")];
      && GainAsWritten(first, {("A", EndMarker)}, "A", rhs, 0) == {EndMarker}
      && Tok("b") in Gain(g, first, {("A", EndMarker)}, "A", rhs, 0)
  {
    var rhs := [NonTerminal("B"), Terminal("b")];
    assert Image({("A", EndMarker)}, "A") == {EndMarker};
    SuccessorTerminalGained(g, first, {("A", EndMarker)}, "A", rhs, 0);
  }

  /** As written, `A -> B B c` hands FOLLOW(A) to the first `B` even when
      `B` is not nullable, so the end marker reaches it; the rule above
      gives that `B` only FIRST(B c). */
  lemma {:induction false} AsWrittenRepeatedSymbolLeaks(g: Grammar)
    requires !Nullable(g, NonTerminal("B"))
    ensures var first := {("B", Tok("b"))};
      var rhs := [NonTerminal("B"), NonTerminal("B"), Terminal("c")];
      && EndMarker in GainAsWritten(first, {("A", EndMarker)}, "A", rhs, 0)
      && Gain(g, first, {("A", EndMarker)}, "A", rhs, 0) == {Tok("b")}
  {
    var first := {("B", Tok("b"))};
    var rhs := [NonTerminal("B"), NonTerminal("B"), Terminal("c")];
    assert Image({("A", EndMarker)}, "A") == {EndMarker};
    assert Image(first, "B") == {Tok("b")};
    assert rhs[1..][0] == NonTerminal("B");
    FirstOfSeqStops(g, first, rhs[1..], 0);
    assert rhs[1..][..1] == [NonTerminal("B")];
    assert FirstOfSeq(g, first, [NonTerminal("B")]) == {Tok("b")};
  }
}

=== FILE: grammars.dfy ===
/** The LL(1) grammar record of sintacticoLL.py and its builder operations. */
module Grammars {
  import opened Wrappers
  import opened Symbols

  /** Declared nonterminals and terminals, the alternatives of each
      nonterminal in declaration order, the start symbol once it is set,
      and the nonterminals declared nullable. */
  datatype Grammar = Grammar(
    nonterminals: set<string>,
    terminals: set<string>,
    productions: map<string, seq<seq<Symbol>>>,
    start: Option<string>,
    nullable: set<string>)

  /** The grammar a fresh builder starts from. */
  function EmptyGrammar(): (g: Grammar)
    ensures g.nonterminals == {} && g.terminals == {} && g.nullable == {}
    ensures g.productions == map[] && g.start.None?
    ensures Prods(g) == {}
  {
    Grammar({}, {}, map[], None, {})
  }

  /** The alternatives of `a`, none when nothing was added for it. */
  function Alternatives(g: Grammar, a: string): seq<seq<Symbol>>
  {
    if a in g.productions then g.productions[a] else []
  }

  /** Every production of the grammar, as `lhs -> rhs` values. */
  function Prods(g: Grammar): (ps: set<Production>)
    ensures forall p :: p in ps <==> p.lhs in g.productions && p.rhs in g.productions[p.lhs]
  {
    set a, rhs | a in g.productions && rhs in g.productions[a] :: Production(a, rhs)
  }

  /** Whether a symbol is a nonterminal the grammar declares nullable;
      the analyses take nullability from this declaration. */
  predicate Nullable(g: Grammar, s: Symbol)
  {
    s.NonTerminal? && s.name in g.nullable
  }

  /** Every nonterminal that has an entry has at least one alternative:
      the builder creates an entry only together with its first production. */
  ghost predicate EntriesNonEmpty(g: Grammar)
  {
    forall a :: a in g.productions ==> |g.productions[a]| > 0
  }

  function AddNonterminal(g: Grammar, a: string): (r: Grammar)
    ensures a in r.nonterminals
    ensures forall b :: b in r.nonterminals <==> b in g.nonterminals || b == a
    ensures r.(nonterminals := g.nonterminals) == g
  {
    g.(nonterminals := g.nonterminals + {a})
  }

  function AddTerminal(g: Grammar, t: string): (r: Grammar)
    ensures t in r.terminals
    ensures forall b :: b in r.terminals <==> b in g.terminals || b == t
    ensures r.(terminals := g.terminals) == g
  {
    g.(terminals := g.terminals + {t})
  }

  /** Appends `rhs` to the alternatives of `a`, creating the entry when
      `a` has none yet. */
  function AddProduction(g: Grammar, a: string, rhs: seq<Symbol>): (r: Grammar)
    ensures Alternatives(r, a) == Alternatives(g, a) + [rhs]
    ensures forall b :: b != a ==> Alternatives(r, b) == Alternatives(g, b)
    ensures forall b :: b != a ==> (b in r.productions <==> b in g.productions)
    ensures Prods(r) == Prods(g) + {Production(a, rhs)}
    ensures EntriesNonEmpty(g) ==> EntriesNonEmpty(r)
    ensures r.(productions := g.productions) == g
  {
    var r := g.(productions := g.productions[a := Alternatives(g, a) + [rhs]]);
    assert Production(a, rhs) in Prods(r) by {
      assert rhs == r.productions[a][|r.productions[a]| - 1];
    }
    assert forall p :: p in Prods(g) ==> p in Prods(r) by {
      forall p | p in Prods(g) ensures p in Prods(r) {
        if p.lhs == a {
          assert p.rhs in Alternatives(g, a);
          var k :| 0 <= k < |Alternatives(g, a)| && Alternatives(g, a)[k] == p.rhs;
          assert r.productions[a][k] == p.rhs;
        }
      }
    }
    r
  }

  function SetStartSymbol(g: Grammar, s: string): (r: Grammar)
    ensures r.start == Some(s)
    ensures r.(start := g.start) == g
  {
    g.(start := Some(s))
  }

  function AddNullable(g: Grammar, a: string): (r: Grammar)
    ensures Nullable(r, NonTerminal(a))
    ensures forall s :: Nullable(r, s) <==> Nullable(g, s) || s == NonTerminal(a)
    ensures r.(nullable := g.nullable) == g
  {
    g.(nullable := g.nullable + {a})
  }
}

=== FILE: lltable.dfy ===
/** The LL(1) parse table (sintacticoLL.py:69-89): one cell per
    (nonterminal, column), filled from FIRST and FOLLOW, where a second,
    different production for a filled cell is a conflict instead of an
    overwrite. */
module LLTable {
  import opened Wrappers
  import opened Symbols
  import opened Grammars
  import opened First

  type Key = (string, Mark)
  type Table = map<Key, Option<Production>>

  /** The cell `(nonterminal, lookahead)` would receive `incoming` but
      already holds the different production `existing`. */
  datatype Conflict =
    Conflict(nonterminal: string, lookahead: Mark, existing: Production, incoming: Production)

  /** The columns of the table: every declared terminal and the end marker. */
  function Columns(g: Grammar): (c: set<Mark>)
    ensures EndMarker in c && Epsilon !in c
    ensures forall t :: Tok(t) in c <==> t in g.terminals
  {
    (set t | t in g.terminals :: Tok(t)) + {EndMarker}
  }

  /** After initialisation every (nonterminal, terminal) and
      (nonterminal, end marker) cell exists and is empty, and no other
      cell exists. */
  function InitTable(g: Grammar): (t: Table)
    ensures forall a, m :: (a, m) in t <==> a in g.nonterminals && m in Columns(g)
    ensures forall k :: k in t ==> t[k] == None
  {
    var keys := set a, m | a in g.nonterminals && m in Columns(g) :: (a, m);
    map k | k in keys :: None
  }

  /** The columns in which production `p` is placed: FIRST of its
      right-hand side without `epsilon`, and FOLLOW of its left-hand side
      when that right-hand side is nullable. */
  function Predict(g: Grammar, first: Rel, follow: Rel, p: Production): (r: set<Mark>)
    ensures FirstOfSeq(g, first, p.rhs) - {Epsilon} <= r
    ensures Epsilon in FirstOfSeq(g, first, p.rhs) ==> Image(follow, p.lhs) <= r
    ensures Epsilon !in Image(follow, p.lhs) ==> Epsilon !in r
    ensures forall m :: m in r <==>
      || (m in FirstOfSeq(g, first, p.rhs) && m != Epsilon)
      || (Epsilon in FirstOfSeq(g, first, p.rhs) && m in Image(follow, p.lhs))
  {
    var f := FirstOfSeq(g, first, p.rhs);
    (f - {Epsilon}) + (if Epsilon in f then Image(follow, p.lhs) else {})
  }

  /** Places `p` in cell `(a, m)`. An empty or absent cell, or one that
      already holds `p`, takes it; a cell holding a different production is
      a conflict naming both productions and the column, and the table is
      left as it was. */
  function Insert(t: Table, a: string, m: Mark, p: Production): (r: Result<Table, Conflict>)
    ensures r.Failure? <==> (a, m) in t && t[(a, m)].Some? && t[(a, m)].value != p
    ensures r.Failure? ==> r.error == Conflict(a, m, t[(a, m)].value, p)
    ensures r.Success? ==> (a, m) in r.value && r.value[(a, m)] == Some(p)
    ensures r.Success? ==> forall k :: k in t && k != (a, m) ==> k in r.value && r.value[k] == t[k]
    ensures r.Success? ==> forall k :: k in r.value ==> k in t || k == (a, m)
    ensures r.Success? ==> forall k :: k in t && t[k].Some? ==> r.value[k] == t[k]
  {
    if (a, m) in t && t[(a, m)].Some? && t[(a, m)].value != p then
      Failure(Conflict(a, m, t[(a, m)].value, p))
    else
      Success(t[(a, m) := Some(p)])
  }

  /** The assignment as sintacticoLL.py:83 and :89 perform it: the last
      production written to a cell wins. */
  function InsertAsWritten(t: Table, a: string, m: Mark, p: Production): (r: Table)
    ensures (a, m) in r && r[(a, m)] == Some(p)
  {
    t[(a, m) := Some(p)]
  }

  /** Two different productions for one cell: as written the first is
      silently lost; `Insert` reports the conflict instead. */
  lemma OverwriteLosesEarlierProduction(t: Table, a: string, m: Mark, p: Production, q: Production)
    requires p != q
    requires (a, m) !in t || t[(a, m)].None?
    ensures InsertAsWritten(InsertAsWritten(t, a, m, p), a, m, q)[(a, m)] == Some(q)
    ensures Insert(t, a, m, p).Success?
    ensures Insert(Insert(t, a, m, p).value, a, m, q) == Failure(Conflict(a, m, p, q))
  {
  }

  /** The productions the table is built from: those of declared
      nonterminals. */
  function DeclaredProds(g: Grammar): (ps: set<Production>)
    ensures forall p :: p in ps <==> p in Prods(g) && p.lhs in g.nonterminals
  {
    set p | p in Prods(g) && p.lhs in g.nonterminals
  }

  /** Every (cell, production) placement that the productions of `ps` ask for. */
  function Placements(g: Grammar, first: Rel, follow: Rel, ps: set<Production>)
    : (w: set<(Key, Production)>)
    ensures forall k, p :: (k, p) in w <==>
      p in ps && k.0 == p.lhs && k.1 in Predict(g, first, follow, p)
  {
    set p, m | p in ps && m in Predict(g, first, follow, p) :: ((p.lhs, m), p)
  }

  /** No cell is asked for by two different productions. */
  ghost predicate Functional(w: set<(Key, Production)>)
  {
    forall k, p, q :: (k, p) in w && (k, q) in w ==> p == q
  }

  /** The grammar is LL(1) with respect to the given FIRST and FOLLOW sets. */
  ghost predicate IsLL1(g: Grammar, first: Rel, follow: Rel)
  {
    Functional(Placements(g, first, follow, DeclaredProds(g)))
  }

  /** `t` holds exactly the cells of `init` plus the placed ones, every
      placement is in its cell, and every filled cell is a placement. */
  ghost predicate Describes(init: Table, w: set<(Key, Production)>, t: Table)
  {
    && (forall k :: k in t <==> k in init || exists p :: (k, p) in w)
    && (forall k, p :: (k, p) in w ==> k in t && t[k] == Some(p))
    && (forall k :: k in t && t[k].Some? ==> (k, t[k].value) in w)
  }

  /** build_parse_table. On success the table is the initial table with
      every placement made, which requires the grammar to be LL(1); on
      failure the conflict names two different productions that both ask
      for the named cell. */
  method BuildTable(g: Grammar, first: Rel, follow: Rel) returns (r: Result<Table, Conflict>)
    ensures r.Success? <==> IsLL1(g, first, follow)
    ensures r.Success? ==>
      Describes(InitTable(g), Placements(g, first, follow, DeclaredProds(g)), r.value)
    ensures r.Failure? ==>
      var c := r.error;
      var w := Placements(g, first, follow, DeclaredProds(g));
      c.existing != c.incoming
      && ((c.nonterminal, c.lookahead), c.existing) in w
      && ((c.nonterminal, c.lookahead), c.incoming) in w
  {
    var all := DeclaredProds(g);
    var t := InitTable(g);
    var todo := all;
    ghost var done: set<Production> := {};
    ghost var w: set<(Key, Production)> := {};
    while todo != {}
      invariant todo + done == all && todo !! done
      invariant w == Placements(g, first, follow, done)
      invariant Describes(InitTable(g), w, t)
      invariant Functional(w)
      decreases todo
    {
      var p :| p in todo;
      var cols := Predict(g, first, follow, p);
      ghost var placed: set<Mark> := {};
      while cols != {}
        invariant cols + placed == Predict(g, first, follow, p) && cols !! placed
        invariant w == Placements(g, first, follow, done) + PlacedPairs(p, placed)
        invariant Describes(InitTable(g), w, t)
        invariant Functional(w)
        decreases cols
      {
        var m :| m in cols;
        var ins := Insert(t, p.lhs, m, p);
        if ins.Failure? {
          PlacementsWithinGrammar(g, first, follow, done, p, placed, m);
          ConflictRefutesLL1(InitTable(g), w, Placements(g, first, follow, all), t, p.lhs, m, p);
          r := Failure(ins.error);
          return;
        }
        InsertKeepsDescription(InitTable(g), w, t, p.lhs, m, p);
        t := ins.value;
        w := w + {((p.lhs, m), p)};
        cols := cols - {m};
        placed := placed + {m};
      }
      assert w == Placements(g, first, follow, done + {p});
      todo := todo - {p};
      done := done + {p};
    }
    r := Success(t);
  }

  /** Placing `p` in a column it predicts, after some productions and some
      of `p`'s columns, stays within the placements of the whole grammar. */
  lemma PlacementsWithinGrammar(g: Grammar, first: Rel, follow: Rel, done: set<Production>,
                                p: Production, placed: set<Mark>, m: Mark)
    requires done <= DeclaredProds(g) && p in DeclaredProds(g)
    requires placed <= Predict(g, first, follow, p) && m in Predict(g, first, follow, p)
    ensures Placements(g, first, follow, done) + PlacedPairs(p, placed)
            <= Placements(g, first, follow, DeclaredProds(g))
    ensures ((p.lhs, m), p) in Placements(g, first, follow, DeclaredProds(g))
  {
  }

  /** A conflict met while placing `p` exhibits two different productions
      asking for the same cell, so the placements are not functional. */
  lemma ConflictRefutesLL1(init: Table, w: set<(Key, Production)>, all: set<(Key, Production)>, t: Table,
                           a: string, m: Mark, p: Production)
    requires Describes(init, w, t) && w <= all && ((a, m), p) in all
    requires Insert(t, a, m, p).Failure?
    ensures var c := Insert(t, a, m, p).error;
      && c.existing != c.incoming
      && ((c.nonterminal, c.lookahead), c.existing) in all
      && ((c.nonterminal, c.lookahead), c.incoming) in all
      && !Functional(all)
  {
    InsertConflictWitnessed(init, w, t, a, m, p);
  }

  /** The placements production `p` has made in columns `placed`. */
  function PlacedPairs(p: Production, placed: set<Mark>): (w: set<(Key, Production)>)
    ensures forall k, q :: (k, q) in w <==> q == p && k.0 == p.lhs && k.1 in placed
  {
    set m | m in placed :: ((p.lhs, m), p)
  }

  /** A successful insert extends the description by one placement and
      keeps it conflict-free. */
  lemma InsertKeepsDescription(init: Table, w: set<(Key, Production)>, t: Table,
                               a: string, m: Mark, p: Production)
    requires Describes(init, w, t) && Functional(w)
    requires Insert(t, a, m, p).Success?
    ensures Describes(init, w + {((a, m), p)}, Insert(t, a, m, p).value)
    ensures Functional(w + {((a, m), p)})
  {
    var t' := Insert(t, a, m, p).value;
    var w' := w + {((a, m), p)};
    forall k ensures k in t' <==> k in init || exists q :: (k, q) in w'
    {
      if k == (a, m) {
        assert (k, p) in w';
      } else if exists q :: (k, q) in w' {
        var q :| (k, q) in w';
        assert (k, q) in w;
      }
    }
  }

  /** A failed insert meets a placement already made for a different
      production. */
  lemma InsertConflictWitnessed(init: Table, w: set<(Key, Production)>, t: Table,
                                a: string, m: Mark, p: Production)
    requires Describes(init, w, t)
    requires Insert(t, a, m, p).Failure?
    ensures var c := Insert(t, a, m, p).error;
      c.nonterminal == a && c.lookahead == m && c.incoming == p
      && c.existing != p && ((a, m), c.existing) in w
  {
  }

  /** Building is deterministic: two tables that both describe the same
      placements over the same empty initial table are equal, whatever
      order the cells were filled in. */
  lemma {:induction false} TableDetermined(init: Table, w: set<(Key, Production)>, t1: Table, t2: Table)
    requires forall k :: k in init ==> init[k] == None
    requires Describes(init, w, t1) && Describes(init, w, t2)
    ensures t1 == t2
  {
    forall k | k in t1
      ensures k in t2 && t1[k] == t2[k]
    {
      if t1[k].Some? {
        assert (k, t1[k].value) in w;
      } else if t2[k].Some? {
        assert (k, t2[k].value) in w;
      }
    }
    assert t1.Keys == t2.Keys;
  }

  /** In a built table, a production sits in every column of FIRST of its
      right-hand side, and, when that side is nullable, in every column of
      FOLLOW of its left-hand side; every filled cell holds a production of
      the cell's own nonterminal. */
  lemma BuiltTablePlacement(g: Grammar, first: Rel, follow: Rel, t: Table, p: Production)
    requires Describes(InitTable(g), Placements(g, first, follow, DeclaredProds(g)), t)
    requires p in Prods(g) && p.lhs in g.nonterminals
    ensures forall m :: m in FirstOfSeq(g, first, p.rhs) && m != Epsilon ==>
      (p.lhs, m) in t && t[(p.lhs, m)] == Some(p)
    ensures Epsilon in FirstOfSeq(g, first, p.rhs) ==> forall m :: m in Image(follow, p.lhs) ==>
      (p.lhs, m) in t && t[(p.lhs, m)] == Some(p)
    ensures forall k :: k in t && t[k].Some? ==> t[k].value.lhs == k.0
  {
    var w := Placements(g, first, follow, DeclaredProds(g));
    forall m | m in Predict(g, first, follow, p)
      ensures (p.lhs, m) in t && t[(p.lhs, m)] == Some(p)
    {
      assert ((p.lhs, m), p) in w;
    }
  }
}

=== FILE: lrgrammars.dfy ===
/** The grammar record of sintacticoLR.py (lines 58-74): productions kept
    in a list, symbols recorded as productions are added. */
module LRGrammars {
  import opened Wrappers

  /** An element after the head of a production list: a symbol name, or a
      nested list of names (one level deep). */
  datatype RhsElem = Name(name: string) | Group(names: seq<string>)

  /** A production as the source writes it, `[lhs, e1, e2, ...]`. */
  datatype RawProduction = RawProduction(lhs: string, body: seq<RhsElem>)

  datatype LRGrammar = LRGrammar(
    nonTerminals: set<string>,
    terminals: set<string>,
    productions: seq<RawProduction>,
    startSymbol: Option<string>)

  function EmptyLRGrammar(): (g: LRGrammar)
    ensures g.nonTerminals == {} && g.terminals == {} && g.productions == [] && g.startSymbol.None?
  {
    LRGrammar({}, {}, [], None)
  }

  /** The names of one element. */
  function ElemNames(e: RhsElem): (s: set<string>)
    ensures forall x :: x in s <==> e == Name(x) || (e.Group? && x in e.names)
  {
    match e
    case Name(x) => {x}
    case Group(ns) => set x | x in ns
  }

  /** Every name in a production body, nested lists flattened one level. */
  function BodyNames(body: seq<RhsElem>): (s: set<string>)
    ensures forall x :: x in s <==> exists i :: 0 <= i < |body| && x in ElemNames(body[i])
    decreases |body|
  {
    if |body| == 0 then {}
    else
      var rest := BodyNames(body[1..]);
      assert forall x, i :: 0 <= i < |body[1..]| && x in ElemNames(body[1..][i]) ==>
        x in ElemNames(body[i + 1]);
      assert forall x, i :: 1 <= i < |body| && x in ElemNames(body[i]) ==>
        x in ElemNames(body[1..][i - 1]);
      ElemNames(body[0]) + rest
  }

  /** Every stored production has its head among the nonterminals and
      every body name among the terminals. */
  ghost predicate Recorded(g: LRGrammar)
  {
    forall i :: 0 <= i < |g.productions| ==>
      g.productions[i].lhs in g.nonTerminals && BodyNames(g.productions[i].body) <= g.terminals
  }

  /** add_production: records the head as a nonterminal and every body
      name as a terminal, and appends the production after the earlier
      ones, which stay as they were. */
  function AddProduction(g: LRGrammar, p: RawProduction): (r: LRGrammar)
    ensures |r.productions| == |g.productions| + 1
    ensures r.productions[..|g.productions|] == g.productions
    ensures r.productions[|g.productions|] == p
    ensures forall x :: x in r.nonTerminals <==> x in g.nonTerminals || x == p.lhs
    ensures forall x :: x in r.terminals <==>
      || x in g.terminals
      || exists i :: 0 <= i < |p.body|
                     && (p.body[i] == Name(x) || (p.body[i].Group? && x in p.body[i].names))
    ensures r.startSymbol == g.startSymbol
    ensures Recorded(g) ==> Recorded(r)
  {
    var r := LRGrammar(g.nonTerminals + {p.lhs}, g.terminals + BodyNames(p.body),
                       g.productions + [p], g.startSymbol);
    assert forall i :: 0 <= i < |g.productions| ==> r.productions[i] == g.productions[i];
    r
  }
}

=== FILE: lritems.dfy ===
/** Dotted LR items (sintacticoLR.py:1-17). */
module LRItems {
  import opened Wrappers
  import opened Symbols

  /** A production with a dot before `rhs[dot]`, or at the end when
      `dot == |rhs|`. */
  datatype Item = Item(prod: Production, dot: nat)

  /** The symbol after the dot, when there is one. */
  function NextSymbol(it: Item): (r: Option<Symbol>)
    ensures r.Some? <==> it.dot < |it.prod.rhs|
    ensures r.Some? ==> r.value == it.prod.rhs[it.dot]
  {
    if it.dot < |it.prod.rhs| then Some(it.prod.rhs[it.dot]) else None
  }

  /** The dot is at the end: the whole right-hand side has been seen. */
  predicate IsReduceItem(it: Item)
    ensures IsReduceItem(it) ==> NextSymbol(it).None?
    ensures it.dot <= |it.prod.rhs| ==> (IsReduceItem(it) <==> NextSymbol(it).None?)
  {
    it.dot == |it.prod.rhs|
  }

  /** A symbol follows the dot. For a well-formed dot exactly one of
      shift item and reduce item holds. */
  predicate IsShiftItem(it: Item)
    ensures IsShiftItem(it) <==> it.dot < |it.prod.rhs|
    ensures it.dot <= |it.prod.rhs| ==> (IsShiftItem(it) <==> !IsReduceItem(it))
  {
    NextSymbol(it).Some? && !IsReduceItem(it)
  }

  /** Moves the dot over the next symbol; the production is unchanged and
      a shift item stays within its right-hand side. */
  function Shift(it: Item): (r: Item)
    ensures r.prod == it.prod && r.dot == it.dot + 1
    ensures IsShiftItem(it) ==> r.dot <= |r.prod.rhs|
  {
    Item(it.prod, it.dot + 1)
  }

  /** The symbols an item still expects, collected by repeatedly reading
      the next symbol and shifting until a reduce item is reached. */
  function Remaining(it: Item): seq<Symbol>
    requires it.dot <= |it.prod.rhs|
    decreases |it.prod.rhs| - it.dot
  {
    if IsReduceItem(it) then [] else [NextSymbol(it).value] + Remaining(Shift(it))
  }

  /** Shifting walks exactly the rest of the right-hand side, in order. */
  lemma {:induction false} RemainingIsSuffix(it: Item)
    requires it.dot <= |it.prod.rhs|
    ensures Remaining(it) == it.prod.rhs[it.dot..]
    decreases |it.prod.rhs| - it.dot
  {
    if !IsReduceItem(it) {
      RemainingIsSuffix(Shift(it));
      assert it.prod.rhs[it.dot..] == [it.prod.rhs[it.dot]] + it.prod.rhs[it.dot + 1..];
    }
  }
}

=== FILE: predictive.dfy ===
/** The table-driven predictive recogniser (sintacticoLL.py:91-119): a
    stack of symbols over the end marker, a read-only token sequence and a
    cursor. */
module Predictive {
  import opened Wrappers
  import opened Symbols
  import opened LLTable

  /** A stack slot: the end marker at the bottom, or a grammar symbol. */
  datatype Slot = Bottom | Sym(sym: Symbol)

  /** The stack, top at the end as in the source's Python list, and the
      position of the next token. */
  datatype Config = Config(stack: seq<Slot>, cursor: nat)

  datatype SyntaxError =
    | Mismatch(expected: Symbol, found: Mark, position: nat)
    | NoEntry(nonterminal: string, found: Mark, position: nat)
    | TrailingInput(found: Mark, position: nat)
    | EmptyStack

  datatype StepResult =
    | Matched(next: Config)
    | Expanded(next: Config, applied: Production)
    | Accept
    | Reject(error: SyntaxError)

  /** The outcome of a run: the productions applied, in order, on
      acceptance; the error on rejection; or exhaustion of the step bound. */
  datatype Outcome = Accepted(derivation: seq<Production>) | Rejected(error: SyntaxError) | OutOfFuel

  /** The slots an expansion pushes: the right-hand side reversed, so that
      its first symbol ends on top; nothing for an epsilon production. */
  function Push(rhs: seq<Symbol>): (r: seq<Slot>)
    ensures |r| == |rhs|
    ensures forall i :: 0 <= i < |rhs| ==> r[i] == Sym(rhs[|rhs| - 1 - i])
    decreases |rhs|
  {
    if |rhs| == 0 then [] else Push(rhs[1..]) + [Sym(rhs[0])]
  }

  /** One move of the automaton. */
  function Step(table: Table, tokens: seq<string>, c: Config): (r: StepResult)
    ensures r.Matched? ==>
      && |c.stack| > 0 && c.stack[|c.stack| - 1].Sym? && c.stack[|c.stack| - 1].sym.Terminal?
      && Lookahead(tokens, c.cursor) == Tok(c.stack[|c.stack| - 1].sym.name)
      && r.next.stack == c.stack[..|c.stack| - 1]
      && r.next.cursor == c.cursor + 1
    ensures r.Expanded? ==>
      && |c.stack| > 0 && c.stack[|c.stack| - 1].Sym? && c.stack[|c.stack| - 1].sym.NonTerminal?
      && var key := (c.stack[|c.stack| - 1].sym.name, Lookahead(tokens, c.cursor));
      && key in table && table[key] == Some(r.applied)
      && r.next.stack == c.stack[..|c.stack| - 1] + Push(r.applied.rhs)
      && |r.next.stack| == |c.stack| - 1 + |r.applied.rhs|
      && (|r.applied.rhs| > 0 ==> r.next.stack[|r.next.stack| - 1] == Sym(r.applied.rhs[0]))
      && r.next.cursor == c.cursor
    ensures r.Accept? <==>
      |c.stack| > 0 && c.stack[|c.stack| - 1] == Bottom && Lookahead(tokens, c.cursor) == EndMarker
    ensures r.Reject? <==>
      || |c.stack| == 0
      || (c.stack[|c.stack| - 1] == Bottom && Lookahead(tokens, c.cursor) != EndMarker)
      || (c.stack[|c.stack| - 1].Sym? && c.stack[|c.stack| - 1].sym.Terminal?
          && Lookahead(tokens, c.cursor) != Tok(c.stack[|c.stack| - 1].sym.name))
      || (c.stack[|c.stack| - 1].Sym? && c.stack[|c.stack| - 1].sym.NonTerminal?
          && var key := (c.stack[|c.stack| - 1].sym.name, Lookahead(tokens, c.cursor));
             key !in table || table[key].None?)
  {
    if |c.stack| == 0 then Reject(EmptyStack)
    else
      var top := c.stack[|c.stack| - 1];
      var rest := c.stack[..|c.stack| - 1];
      var la := Lookahead(tokens, c.cursor);
      match top
      case Bottom =>
        if la == EndMarker then Accept else Reject(TrailingInput(la, c.cursor))
      case Sym(Terminal(t)) =>
        if la == Tok(t) then Matched(Config(rest, c.cursor + 1))
        else Reject(Mismatch(Terminal(t), la, c.cursor))
      case Sym(NonTerminal(a)) =>
        if (a, la) in table && table[(a, la)].Some? then
          var p := table[(a, la)].value;
          Expanded(Config(rest + Push(p.rhs), c.cursor), p)
        else Reject(NoEntry(a, la, c.cursor))
  }

  /** Runs at most `fuel` moves from `c`. Every applied production used a
      move of the bound, and so did the final acceptance. */
  function Run(table: Table, tokens: seq<string>, c: Config, fuel: nat): (r: Outcome)
    ensures fuel == 0 ==> r == OutOfFuel
    ensures r.Accepted? ==> |r.derivation| < fuel
    ensures fuel > 0 && Step(table, tokens, c).Reject? ==> r == Rejected(Step(table, tokens, c).error)
    ensures fuel > 0 && Step(table, tokens, c).Accept? ==> r == Accepted([])
    decreases fuel
  {
    if fuel == 0 then OutOfFuel
    else
      match Step(table, tokens, c)
      case Accept => Accepted([])
      case Reject(e) => Rejected(e)
      case Matched(next) => Run(table, tokens, next, fuel - 1)
      case Expanded(next, p) =>
        match Run(table, tokens, next, fuel - 1)
        case Accepted(d) => Accepted([p] + d)
        case other => other
  }

  /** A decided run is decided for good: more fuel yields the same
      outcome. */
  lemma {:induction false} RunFuelMonotone(table: Table, tokens: seq<string>, c: Config,
                                           fuel: nat, more: nat)
    requires fuel <= more && Run(table, tokens, c, fuel) != OutOfFuel
    ensures Run(table, tokens, c, more) == Run(table, tokens, c, fuel)
    decreases fuel
  {
    match Step(table, tokens, c)
    case Accept =>
    case Reject(_) =>
    case Matched(next) =>
      RunFuelMonotone(table, tokens, next, fuel - 1, more - 1);
    case Expanded(next, p) =>
      RunFuelMonotone(table, tokens, next, fuel - 1, more - 1);
  }

  /** The configuration `n` matches and expansions after `c`, if the
      automaton neither accepts nor rejects before then. */
  function Iterate(table: Table, tokens: seq<string>, c: Config, n: nat): Option<Config>
    decreases n
  {
    if n == 0 then Some(c)
    else
      match Step(table, tokens, c)
      case Matched(next) => Iterate(table, tokens, next, n - 1)
      case Expanded(next, _) => Iterate(table, tokens, next, n - 1)
      case _ => None
  }

  /** Progress: a run whose fuel covers the moves to a configuration
      that accepts does accept. */
  lemma {:induction false} RunReachesAccept(table: Table, tokens: seq<string>, c: Config,
                                            n: nat, fuel: nat)
    requires n < fuel
    requires Iterate(table, tokens, c, n).Some?
    requires Step(table, tokens, Iterate(table, tokens, c, n).value).Accept?
    ensures Run(table, tokens, c, fuel).Accepted?
    decreases n
  {
    if n > 0 {
      match Step(table, tokens, c)
      case Matched(next) =>
        RunReachesAccept(table, tokens, next, n - 1, fuel - 1);
      case Expanded(next, _) =>
        RunReachesAccept(table, tokens, next, n - 1, fuel - 1);
    }
  }

  /** The initial configuration: the end marker under the start symbol,
      cursor on the first token. */
  function Initial(start: string): Config
  {
    Config([Bottom, Sym(NonTerminal(start))], 0)
  }

  /** parse, with the start symbol pushed over the end marker. The first
      move expands the start symbol, so an accepted parse applies at least
      one production, the one in the cell of the start symbol and the
      first lookahead; an empty cell there rejects the input at once. */
  function Parse(table: Table, start: string, tokens: seq<string>, fuel: nat): (r: Outcome)
    ensures r.Accepted? ==>
      && |r.derivation| > 0
      && (start, Lookahead(tokens, 0)) in table
      && table[(start, Lookahead(tokens, 0))] == Some(r.derivation[0])
    ensures var key := (start, Lookahead(tokens, 0));
      fuel > 0 && (key !in table || table[key].None?) ==>
      r == Rejected(NoEntry(start, Lookahead(tokens, 0), 0))
  {
    Run(table, tokens, Initial(start), fuel)
  }

  /** parse as sintacticoLL.py:92 sets it up: the stack holds only the end
      marker, so the only input it can accept is the empty one, with no
      production applied. */
  function ParseAsWritten(table: Table, tokens: seq<string>, fuel: nat): (r: Outcome)
    ensures r.Accepted? <==> |tokens| == 0 && fuel > 0
    ensures r.Accepted? ==> r.derivation == []
  {
    Run(table, tokens, Config([Bottom], 0), fuel)
  }

  /** Without the start symbol the first move compares the end marker with
      the first token, so every non-empty input is rejected. */
  lemma AsWrittenRejectsNonEmptyInput(table: Table, tokens: seq<string>, fuel: nat)
    requires |tokens| > 0 && fuel > 0
    ensures ParseAsWritten(table, tokens, fuel) == Rejected(TrailingInput(Tok(tokens[0]), 0))
  {
  }

  /** The one-production grammar `E -> id`: the corrected parser accepts
      the input `id`, which the parser as written rejects. */
  lemma SingleTokenExample()
    ensures var p := Production("E", [Terminal("id")]);
      var table := map[("E", Tok("id")) := Some(p), ("E", EndMarker) := None];
      && Parse(table, "E", ["id"], 3) == Accepted([p])
      && ParseAsWritten(table, ["id"], 3).Rejected?
  {
    var p := Production("E", [Terminal("id")]);
    var table := map[("E", Tok("id")) := Some(p), ("E", EndMarker) := None];
    var c1 := Config([Bottom, Sym(Terminal("id"))], 0);
    var c2 := Config([Bottom], 1);
    assert Step(table, ["id"], Initial("E")) == Expanded(c1, p);
    assert Step(table, ["id"], c1) == Matched(c2);
    assert Step(table, ["id"], c2) == Accept;
    AsWrittenRejectsNonEmptyInput(table, ["id"], 3);
  }

  // ---------------------------------------------------------------------
  // Soundness: an accepted input has the recorded leftmost derivation.

  /** Tokens as terminal symbols. */
  function Terms(w: seq<string>): (r: seq<Symbol>)
    ensures |r| == |w|
    ensures forall i :: 0 <= i < |w| ==> r[i] == Terminal(w[i])
  {
    seq(|w|, i requires 0 <= i < |w| => Terminal(w[i]))
  }

  /** The symbols still to be derived, top of the stack first. */
  function Pending(st: seq<Slot>): seq<Symbol>
    decreases |st|
  {
    if |st| == 0 then []
    else
      match st[|st| - 1]
      case Bottom => Pending(st[..|st| - 1])
      case Sym(s) => [s] + Pending(st[..|st| - 1])
  }

  /** The position of the leftmost nonterminal of `form`, or `|form|`. */
  function LeftmostNonTerminal(form: seq<Symbol>): (i: nat)
    ensures i <= |form|
    ensures forall j :: 0 <= j < i ==> form[j].Terminal?
    ensures i < |form| ==> form[i].NonTerminal?
    decreases |form|
  {
    if |form| == 0 || form[0].NonTerminal? then 0
    else 1 + LeftmostNonTerminal(form[1..])
  }

  /** One leftmost derivation step with `p`, when the leftmost nonterminal
      of `form` is the left-hand side of `p`. */
  function LeftmostApply(form: seq<Symbol>, p: Production): Option<seq<Symbol>>
  {
    var i := LeftmostNonTerminal(form);
    if i < |form| && form[i] == NonTerminal(p.lhs) then Some(form[..i] + p.rhs + form[i + 1..])
    else None
  }

  /** Applies the productions of `d` in order as leftmost steps. */
  function Derive(form: seq<Symbol>, d: seq<Production>): Option<seq<Symbol>>
    decreases |d|
  {
    if |d| == 0 then Some(form)
    else
      match LeftmostApply(form, d[0])
      case None => None
      case Some(next) => Derive(next, d[1..])
  }

  /** The end marker sits at the bottom and only there. */
  ghost predicate WellStacked(st: seq<Slot>)
  {
    |st| >= 1 && st[0] == Bottom && forall i :: 1 <= i < |st| ==> st[i].Sym?
  }

  /** Every filled cell holds a production of the cell's own nonterminal,
      as every built table does. */
  ghost predicate Coherent(table: Table)
  {
    forall k :: k in table && table[k].Some? ==> table[k].value.lhs == k.0
  }

  /** Every production of `d` is in some cell of the table. */
  ghost predicate FromTable(table: Table, d: seq<Production>)
  {
    forall i :: 0 <= i < |d| ==> exists k :: k in table && table[k] == Some(d[i])
  }

  /** The sentential form a configuration stands for: the tokens read so
      far followed by the pending symbols. */
  function Form(tokens: seq<string>, c: Config): seq<Symbol>
    requires c.cursor <= |tokens|
  {
    Terms(tokens[..c.cursor]) + Pending(c.stack)
  }

  lemma {:induction false} PendingPush(base: seq<Slot>, rhs: seq<Symbol>)
    ensures Pending(base + Push(rhs)) == rhs + Pending(base)
    decreases |rhs|
  {
    if |rhs| > 0 {
      var inner := base + Push(rhs[1..]);
      assert base + Push(rhs) == inner + [Sym(rhs[0])];
      assert (inner + [Sym(rhs[0])])[..|inner|] == inner;
      PendingPush(base, rhs[1..]);
      calc {
        Pending(base + Push(rhs));
        Pending(inner + [Sym(rhs[0])]);
        [rhs[0]] + Pending(inner);
        [rhs[0]] + (rhs[1..] + Pending(base));
        { assert [rhs[0]] + rhs[1..] == rhs; }
        rhs + Pending(base);
      }
    } else {
      assert base + Push(rhs) == base;
    }
  }

  lemma LeftmostAfterTerms(w: seq<string>, a: string, rest: seq<Symbol>)
    ensures LeftmostNonTerminal(Terms(w) + [NonTerminal(a)] + rest) == |w|
  {
    var form := Terms(w) + [NonTerminal(a)] + rest;
    var i := LeftmostNonTerminal(form);
    assert form[|w|].NonTerminal?;
    assert forall j :: 0 <= j < |w| ==> form[j] == Terminal(w[j]);
  }

  lemma PendingPop(st: seq<Slot>)
    requires |st| > 0 && st[|st| - 1].Sym?
    ensures Pending(st) == [st[|st| - 1].sym] + Pending(st[..|st| - 1])
  {
  }

  lemma {:induction false} MatchKeepsForm(tokens: seq<string>, c: Config, next: Config)
    requires WellStacked(c.stack) && c.cursor < |tokens|
    requires c.stack[|c.stack| - 1] == Sym(Terminal(tokens[c.cursor]))
    requires next == Config(c.stack[..|c.stack| - 1], c.cursor + 1)
    ensures WellStacked(next.stack) && Form(tokens, next) == Form(tokens, c)
  {
    var t := tokens[c.cursor];
    PendingPop(c.stack);
    assert tokens[..c.cursor + 1] == tokens[..c.cursor] + [t];
    assert Terms(tokens[..c.cursor + 1]) == Terms(tokens[..c.cursor]) + [Terminal(t)];
  }

  lemma {:induction false} ExpandRewritesForm(tokens: seq<string>, c: Config, p: Production,
                                              next: Config)
    requires WellStacked(c.stack) && c.cursor <= |tokens|
    requires c.stack[|c.stack| - 1] == Sym(NonTerminal(p.lhs))
    requires next == Config(c.stack[..|c.stack| - 1] + Push(p.rhs), c.cursor)
    ensures WellStacked(next.stack)
    ensures LeftmostApply(Form(tokens, c), p) == Some(Form(tokens, next))
  {
    var st := c.stack;
    var rest := st[..|st| - 1];
    var done := Terms(tokens[..c.cursor]);
    PendingPop(st);
    PendingPush(rest, p.rhs);
    LeftmostAfterTerms(tokens[..c.cursor], p.lhs, Pending(rest));
    var form := done + [NonTerminal(p.lhs)] + Pending(rest);
    var n := |done|;
    assert form[..n] == done;
    assert form[n + 1..] == Pending(rest);
    assert Form(tokens, c) == form;
    assert Form(tokens, next) == done + (p.rhs + Pending(rest));
    assert done + p.rhs + Pending(rest) == done + (p.rhs + Pending(rest));
    forall i | 1 <= i < |next.stack|
      ensures next.stack[i].Sym?
    {
      if i >= |rest| {
        assert next.stack[i] == Push(p.rhs)[i - |rest|];
      }
    }
  }

  /** A move from a well-formed configuration keeps it well formed and
      either leaves its sentential form unchanged (a match) or rewrites it
      by one leftmost step with the applied production (an expansion);
      acceptance happens only when the form is exactly the input. */
  lemma {:induction false} StepPreservesForm(table: Table, tokens: seq<string>, c: Config)
    requires Coherent(table) && WellStacked(c.stack) && c.cursor <= |tokens|
    ensures match Step(table, tokens, c)
      case Matched(next) =>
        WellStacked(next.stack) && next.cursor <= |tokens| && Form(tokens, next) == Form(tokens, c)
      case Expanded(next, p) =>
        WellStacked(next.stack) && next.cursor <= |tokens|
        && LeftmostApply(Form(tokens, c), p) == Some(Form(tokens, next))
      case Accept => Form(tokens, c) == Terms(tokens)
      case Reject(_) => true
  {
    var st := c.stack;
    match Step(table, tokens, c)
    case Matched(next) =>
      MatchKeepsForm(tokens, c, next);
    case Expanded(next, p) =>
      var key := (st[|st| - 1].sym.name, Lookahead(tokens, c.cursor));
      assert table[key].value.lhs == key.0;
      ExpandRewritesForm(tokens, c, p, next);
    case Accept =>
      assert |st| == 1;
      assert Pending(st) == Pending(st[..0]) == [];
      assert tokens[..c.cursor] == tokens;
    case Reject(_) =>
  }

  /** Soundness of a run: when it accepts, the recorded productions derive
      the input from the configuration's sentential form by leftmost steps. */
  lemma {:induction false} RunSound(table: Table, tokens: seq<string>, c: Config, fuel: nat)
    requires Coherent(table) && WellStacked(c.stack) && c.cursor <= |tokens|
    ensures Run(table, tokens, c, fuel).Accepted? ==>
      && Derive(Form(tokens, c), Run(table, tokens, c, fuel).derivation) == Some(Terms(tokens))
      && FromTable(table, Run(table, tokens, c, fuel).derivation)
    decreases fuel
  {
    if fuel > 0 {
      StepPreservesForm(table, tokens, c);
      match Step(table, tokens, c)
      case Accept =>
      case Reject(_) =>
      case Matched(next) =>
        RunSound(table, tokens, next, fuel - 1);
      case Expanded(next, p) =>
        RunSound(table, tokens, next, fuel - 1);
        var out := Run(table, tokens, next, fuel - 1);
        if out.Accepted? {
          var d := [p] + out.derivation;
          assert d[0] == p && d[1..] == out.derivation;
          forall i | 0 <= i < |d|
            ensures exists k :: k in table && table[k] == Some(d[i])
          {
            if i > 0 {
              assert d[i] == out.derivation[i - 1];
            }
          }
        }
    }
  }

  /** Parsing is sound: an accepted token sequence is derived from the
      start symbol by the recorded productions, each a leftmost step. */
  lemma ParseSound(table: Table, start: string, tokens: seq<string>, fuel: nat)
    requires Coherent(table)
    requires Parse(table, start, tokens, fuel).Accepted?
    ensures Derive([NonTerminal(start)], Parse(table, start, tokens, fuel).derivation)
            == Some(Terms(tokens))
    ensures FromTable(table, Parse(table, start, tokens, fuel).derivation)
  {
    RunSound(table, tokens, Initial(start), fuel);
    assert Pending([Bottom]) == [];
    assert [Bottom, Sym(NonTerminal(start))][..1] == [Bottom];
    assert Pending(Initial(start).stack) == [NonTerminal(start)];
    assert Form(tokens, Initial(start)) == [NonTerminal(start)];
  }
}

=== FILE: recognise.dfy ===
/** The LL(1) pipeline the source drives by hand: FIRST, then FOLLOW, then
    the table, then the predictive parse. */
module Recognise {
  import opened Wrappers
  import opened Symbols
  import opened Grammars
  import opened First
  import opened Follow
  import opened LLTable
  import opened Predictive

  datatype BuildError = InvalidGrammar(error: GrammarError) | Ambiguous(conflict: Conflict)

  /** Analyses `g`, builds its table and parses `tokens`. Building fails
      exactly when the start symbol is unusable, a declared nonterminal has
      no alternatives, or the grammar is not LL(1);
      an accepted input is derived from the start symbol by leftmost steps
      that use only productions of `g`. */
  method RecogniseTokens(g: Grammar, tokens: seq<string>, fuel: nat)
    returns (r: Result<Outcome, BuildError>)
    ensures r.Failure? && r.error.InvalidGrammar? <==> !(StartDeclared(g) && AlternativesDeclared(g))
    ensures r.Failure? && r.error.Ambiguous? <==>
      && StartDeclared(g) && AlternativesDeclared(g)
      && !IsLL1(g, ComputeFirst(g), ComputeFollow(g, ComputeFirst(g)).value)
    ensures r.Success? && r.value.Accepted? ==>
      && g.start.Some?
      && Derive([NonTerminal(g.start.value)], r.value.derivation) == Some(Terms(tokens))
      && forall i :: 0 <= i < |r.value.derivation| ==> r.value.derivation[i] in Prods(g)
  {
    var first := ComputeFirst(g);
    var follow := ComputeFollow(g, first);
    if follow.Failure? {
      return Failure(InvalidGrammar(follow.error));
    }
    var built := BuildTable(g, first, follow.value);
    if built.Failure? {
      return Failure(Ambiguous(built.error));
    }
    var table := built.value;
    BuiltTableCells(g, first, follow.value, table);
    var out := Parse(table, g.start.value, tokens, fuel);
    if out.Accepted? {
      ParseSound(table, g.start.value, tokens, fuel);
      forall i | 0 <= i < |out.derivation|
        ensures out.derivation[i] in Prods(g)
      {
        var k :| k in table && table[k] == Some(out.derivation[i]);
      }
    }
    r := Success(out);
  }

  /** Every filled cell of a built table holds a production of the grammar
      whose left-hand side is the cell's nonterminal. */
  lemma BuiltTableCells(g: Grammar, first: Rel, follow: Rel, table: Table)
    requires Describes(InitTable(g), Placements(g, first, follow, DeclaredProds(g)), table)
    ensures Coherent(table)
    ensures forall k :: k in table && table[k].Some? ==> table[k].value in Prods(g)
  {
    var w := Placements(g, first, follow, DeclaredProds(g));
    forall k | k in table && table[k].Some?
      ensures table[k].value.lhs == k.0 && table[k].value in Prods(g)
    {
      assert (k, table[k].value) in w;
    }
  }
}

=== FILE: shiftreduce.dfy ===
/** The shift-reduce driver (sintacticoLR.py:33-55) over an explicit
    action and goto table. The stack is flat, as in the source: states at
    even positions, the symbol pushed with each state before it. */
module ShiftReduce {
  import opened Wrappers
  import opened Symbols

  datatype Entry = StateEntry(state: nat) | SymbolEntry(sym: Symbol)

  datatype Action = Shift(next: nat) | Reduce(prod: Production) | Accept

  /** The action of each (state, lookahead) pair that has one, and the
      state to enter after reducing to a nonterminal. */
  datatype LRTable = LRTable(action: map<(nat, Mark), Action>, goto: map<(nat, string), nat>)

  datatype Config = Config(stack: seq<Entry>, cursor: nat)

  datatype LRError =
    | UnexpectedToken(state: nat, found: Mark, position: nat, expected: set<Mark>)
    | ShiftPastEnd(state: nat)
    | StackUnderflow(prod: Production, depth: nat)
    | MissingGoto(state: nat, nonterminal: string)
    | CorruptStack

  datatype StepResult = Moved(next: Config, taken: Action) | Finished | Failed(error: LRError)

  /** The outcome of a run: on acceptance the actions taken and the final
      configuration; on rejection the error and the configuration the
      failing move started from. */
  datatype Outcome =
    | Accepted(trace: seq<Action>, final: Config)
    | Rejected(error: LRError, at: Config)
    | OutOfFuel

  /** The lookaheads for which a state has an action. */
  function Expected(table: LRTable, s: nat): (e: set<Mark>)
    ensures forall m :: m in e <==> (s, m) in table.action
  {
    set k | k in table.action && k.0 == s :: k.1
  }

  /** One move, as the action of the top state and the lookahead directs.
      A missing action is an "unexpected token" error naming the top state,
      the lookahead, the cursor and the lookaheads the state expects:
      nothing is pushed, popped or consumed. Accept finishes. A shift
      pushes the token and the next state and advances the cursor by one.
      A reduce by `A -> rhs` needs more than 2|rhs| entries, pops exactly
      2|rhs|, then pushes `A` and the goto state of the exposed state,
      consuming no input. */
  function Step(table: LRTable, tokens: seq<string>, c: Config): (r: StepResult)
    ensures |c.stack| == 0 || !c.stack[|c.stack| - 1].StateEntry? ==> r == Failed(CorruptStack)
    ensures |c.stack| > 0 && c.stack[|c.stack| - 1].StateEntry? ==>
      var s := c.stack[|c.stack| - 1].state;
      var la := Lookahead(tokens, c.cursor);
      && ((s, la) !in table.action ==> r == Failed(UnexpectedToken(s, la, c.cursor, Expected(table, s))))
      && ((s, la) in table.action && table.action[(s, la)] == Accept ==> r == Finished)
      && ((s, la) in table.action && table.action[(s, la)].Shift? ==>
            if la.Tok? then r.Moved? && r.taken == table.action[(s, la)]
            else r == Failed(ShiftPastEnd(s)))
    ensures |c.stack| > 0 && c.stack[|c.stack| - 1].StateEntry? ==>
      var s := c.stack[|c.stack| - 1].state;
      var la := Lookahead(tokens, c.cursor);
      (s, la) in table.action && table.action[(s, la)].Reduce? ==>
        var p := table.action[(s, la)].prod;
        var k := 2 * |p.rhs|;
        if |c.stack| <= k then r == Failed(StackUnderflow(p, |c.stack|))
        else
          var e := c.stack[|c.stack| - k - 1];
          if !e.StateEntry? then r == Failed(CorruptStack)
          else if (e.state, p.lhs) in table.goto then r.Moved? && r.taken == Reduce(p)
          else r == Failed(MissingGoto(e.state, p.lhs))
    ensures r.Failed? && r.error.UnexpectedToken? ==>
      && |c.stack| > 0 && c.stack[|c.stack| - 1] == StateEntry(r.error.state)
      && r.error.found == Lookahead(tokens, c.cursor) && r.error.position == c.cursor
      && (r.error.state, r.error.found) !in table.action
      && r.error.expected == Expected(table, r.error.state)
    ensures r.Moved? && r.taken.Shift? ==>
      && c.cursor < |tokens|
      && r.next.stack == c.stack + [SymbolEntry(Terminal(tokens[c.cursor])), StateEntry(r.taken.next)]
      && r.next.cursor == c.cursor + 1
    ensures r.Moved? && r.taken.Reduce? ==>
      var k := 2 * |r.taken.prod.rhs|;
      && |c.stack| > k
      && |r.next.stack| == |c.stack| - k + 2
      && r.next.stack[..|c.stack| - k] == c.stack[..|c.stack| - k]
      && r.next.stack[|c.stack| - k] == SymbolEntry(NonTerminal(r.taken.prod.lhs))
      && r.next.cursor == c.cursor
      && c.stack[|c.stack| - k - 1].StateEntry?
      && (var key := (c.stack[|c.stack| - k - 1].state, r.taken.prod.lhs);
          key in table.goto && r.next.stack[|c.stack| - k + 1] == StateEntry(table.goto[key]))
    ensures r.Moved? || r.Finished? ==>
      && |c.stack| > 0 && c.stack[|c.stack| - 1].StateEntry?
      && var key := (c.stack[|c.stack| - 1].state, Lookahead(tokens, c.cursor));
         && key in table.action
         && (if r.Moved? then table.action[key] == r.taken else table.action[key] == Accept)
  {
    if |c.stack| == 0 || !c.stack[|c.stack| - 1].StateEntry? then Failed(CorruptStack)
    else
      var s := c.stack[|c.stack| - 1].state;
      var la := Lookahead(tokens, c.cursor);
      if (s, la) !in table.action then Failed(UnexpectedToken(s, la, c.cursor, Expected(table, s)))
      else
        match table.action[(s, la)]
        case Accept => Finished
        case Shift(n) =>
          if la.Tok? then
            var pushed := [SymbolEntry(Terminal(la.name)), StateEntry(n)];
            Moved(Config(c.stack + pushed, c.cursor + 1), Shift(n))
          else Failed(ShiftPastEnd(s))
        case Reduce(p) =>
          var k := 2 * |p.rhs|;
          if |c.stack| <= k then Failed(StackUnderflow(p, |c.stack|))
          else
            var kept := c.stack[..|c.stack| - k];
            var exposed := kept[|kept| - 1];
            if !exposed.StateEntry? then Failed(CorruptStack)
            else if (exposed.state, p.lhs) !in table.goto then Failed(MissingGoto(exposed.state, p.lhs))
            else
              var goal := table.goto[(exposed.state, p.lhs)];
              var pushed := [SymbolEntry(NonTerminal(p.lhs)), StateEntry(goal)];
              Moved(Config(kept + pushed, c.cursor), Reduce(p))
  }

  /** Runs at most `fuel` moves from `c`. Every outcome is justified by
      the configuration it stops at: an accepted run ends where the next
      move is Accept, a rejected run where the next move fails with the
      reported error; each recorded action used one move of the bound. */
  function Run(table: LRTable, tokens: seq<string>, c: Config, fuel: nat): (r: Outcome)
    ensures fuel == 0 ==> r == OutOfFuel
    ensures r.Accepted? ==> Step(table, tokens, r.final) == Finished && |r.trace| < fuel
    ensures r.Rejected? ==> Step(table, tokens, r.at) == Failed(r.error)
    ensures fuel > 0 && Step(table, tokens, c) == Finished ==> r == Accepted([], c)
    ensures fuel > 0 && Step(table, tokens, c).Failed? ==> r == Rejected(Step(table, tokens, c).error, c)
    decreases fuel
  {
    if fuel == 0 then OutOfFuel
    else
      match Step(table, tokens, c)
      case Finished => Accepted([], c)
      case Failed(e) => Rejected(e, c)
      case Moved(next, a) =>
        match Run(table, tokens, next, fuel - 1)
        case Accepted(t, final) => Accepted([a] + t, final)
        case other => other
  }

  /** A decided run is decided for good: more fuel yields the same
      outcome. */
  lemma {:induction false} RunFuelMonotone(table: LRTable, tokens: seq<string>, c: Config,
                                           fuel: nat, more: nat)
    requires fuel <= more && Run(table, tokens, c, fuel) != OutOfFuel
    ensures Run(table, tokens, c, more) == Run(table, tokens, c, fuel)
    decreases fuel
  {
    match Step(table, tokens, c)
    case Finished =>
    case Failed(_) =>
    case Moved(next, a) =>
      RunFuelMonotone(table, tokens, next, fuel - 1, more - 1);
  }

  /** The configuration `n` moves after `c`, if no move before then
      finishes or fails. */
  function Iterate(table: LRTable, tokens: seq<string>, c: Config, n: nat): Option<Config>
    decreases n
  {
    if n == 0 then Some(c)
    else
      match Step(table, tokens, c)
      case Moved(next, _) => Iterate(table, tokens, next, n - 1)
      case _ => None
  }

  /** Progress: a run whose fuel covers the moves to a configuration
      where the table says Accept accepts there. */
  lemma {:induction false} RunReachesAccept(table: LRTable, tokens: seq<string>, c: Config,
                                            n: nat, fuel: nat)
    requires n < fuel
    requires Iterate(table, tokens, c, n).Some?
    requires Step(table, tokens, Iterate(table, tokens, c, n).value) == Finished
    ensures Run(table, tokens, c, fuel).Accepted?
    ensures Run(table, tokens, c, fuel).final == Iterate(table, tokens, c, n).value
    decreases n
  {
    if n > 0 {
      match Step(table, tokens, c)
      case Moved(next, _) =>
        RunReachesAccept(table, tokens, next, n - 1, fuel - 1);
    }
  }

  /** The start configuration of parse: state 0 alone, cursor on the first
      token. */
  function Start(): Config
  {
    Config([StateEntry(0)], 0)
  }

  /** parse: runs from state 0. When state 0 has no action for the first
      token the parse is rejected at once with an "unexpected token"
      error; an accepted parse ends where state and lookahead say Accept. */
  function Parse(table: LRTable, tokens: seq<string>, fuel: nat): (r: Outcome)
    ensures fuel > 0 && (0, Lookahead(tokens, 0)) !in table.action ==>
      r == Rejected(UnexpectedToken(0, Lookahead(tokens, 0), 0, Expected(table, 0)), Start())
    ensures r.Accepted? ==>
      var st := r.final.stack;
      && |st| > 0 && st[|st| - 1].StateEntry?
      && var key := (st[|st| - 1].state, Lookahead(tokens, r.final.cursor));
         key in table.action && table.action[key] == Accept
  {
    Run(table, tokens, Start(), fuel)
  }

  /** The one-production grammar `S -> a` with its LR(0) table: state 0
      shifts `a` into state 1, state 1 reduces by `S -> a` at the end of
      the input, the goto on S from state 0 is state 2, where the end of
      the input is accepted. The driver shifts, reduces and accepts. */
  lemma SingleTokenRun()
    ensures var p := Production("S", [Terminal("a")]);
      var table := LRTable(
        map[(0, Tok("a")) := Shift(1), (1, EndMarker) := Reduce(p), (2, EndMarker) := Accept],
        map[(0, "S") := 2]);
      var final := Config([StateEntry(0), SymbolEntry(NonTerminal("S")), StateEntry(2)], 1);
      Parse(table, ["a"], 3) == Accepted([Shift(1), Reduce(p)], final)
  {
    var p := Production("S", [Terminal("a")]);
    var table := LRTable(
      map[(0, Tok("a")) := Shift(1), (1, EndMarker) := Reduce(p), (2, EndMarker) := Accept],
      map[(0, "S") := 2]);
    var c1 := Config([StateEntry(0), SymbolEntry(Terminal("a")), StateEntry(1)], 1);
    var c2 := Config([StateEntry(0), SymbolEntry(NonTerminal("S")), StateEntry(2)], 1);
    assert Step(table, ["a"], Start()) == Moved(c1, Shift(1));
    assert c1.stack[..|c1.stack| - 2] == [StateEntry(0)];
    assert Step(table, ["a"], c1) == Moved(c2, Reduce(p));
    assert Step(table, ["a"], c2) == Finished;
  }

  // ---------------------------------------------------------------------
  // Stack discipline.

  /** States at even positions, symbols at odd ones, a state on top. */
  ghost predicate Alternating(st: seq<Entry>)
  {
    |st| % 2 == 1 && forall i :: 0 <= i < |st| ==> (st[i].StateEntry? <==> i % 2 == 0)
  }

  /** How much an action changes the stack height. */
  function Growth(a: Action): int
  {
    match a
    case Shift(_) => 2
    case Reduce(p) => 2 - 2 * |p.rhs|
    case Accept => 0
  }

  function TotalGrowth(trace: seq<Action>): int
    decreases |trace|
  {
    if |trace| == 0 then 0 else Growth(trace[0]) + TotalGrowth(trace[1..])
  }

  function Shifts(trace: seq<Action>): nat
    decreases |trace|
  {
    if |trace| == 0 then 0 else (if trace[0].Shift? then 1 else 0) + Shifts(trace[1..])
  }

  /** A move from an alternating stack never finds it corrupt, keeps it
      alternating, keeps its bottom entry, changes its height by the
      action's growth, and advances the cursor exactly on a shift. */
  lemma {:induction false} StepKeepsDiscipline(table: LRTable, tokens: seq<string>, c: Config)
    requires Alternating(c.stack) && c.cursor <= |tokens|
    ensures Step(table, tokens, c) != Failed(CorruptStack)
    ensures match Step(table, tokens, c)
      case Moved(next, a) =>
        && Alternating(next.stack) && next.stack[0] == c.stack[0]
        && |next.stack| == |c.stack| + Growth(a)
        && next.cursor == c.cursor + (if a.Shift? then 1 else 0)
        && next.cursor <= |tokens|
      case _ => true
  {
    var st := c.stack;
    assert st[|st| - 1].StateEntry?;
    match Step(table, tokens, c)
    case Moved(next, a) =>
      if a.Reduce? {
        var k := 2 * |a.prod.rhs|;
        var kept := st[..|st| - k];
        assert |kept| % 2 == 1 && kept[|kept| - 1].StateEntry?;
        assert forall i :: 0 <= i < |kept| ==> (kept[i].StateEntry? <==> i % 2 == 0);
        assert next.stack[..|kept|] == kept;
        forall i | 0 <= i < |next.stack|
          ensures next.stack[i].StateEntry? <==> i % 2 == 0
        {
          if i < |kept| {
            assert next.stack[i] == kept[i];
          }
        }
      } else {
        forall i | 0 <= i < |next.stack|
          ensures next.stack[i].StateEntry? <==> i % 2 == 0
        {
          if i < |st| {
            assert next.stack[i] == st[i];
          }
        }
      }
    case _ =>
  }

  /** Over a whole run from an alternating stack: an accepted run ends on
      an alternating stack with the same bottom entry, its height changed
      by the total growth of the recorded actions, with one token consumed
      per recorded shift. */
  lemma {:induction false} RunKeepsDiscipline(table: LRTable, tokens: seq<string>, c: Config, fuel: nat)
    requires Alternating(c.stack) && c.cursor <= |tokens|
    ensures var out := Run(table, tokens, c, fuel);
      out.Accepted? ==>
        && Alternating(out.final.stack) && out.final.stack[0] == c.stack[0]
        && |out.final.stack| == |c.stack| + TotalGrowth(out.trace)
        && out.final.cursor == c.cursor + Shifts(out.trace)
        && out.final.cursor <= |tokens|
    ensures var out := Run(table, tokens, c, fuel);
      out.Rejected? ==> out.error != CorruptStack && Alternating(out.at.stack)
    decreases fuel
  {
    if fuel > 0 {
      StepKeepsDiscipline(table, tokens, c);
      match Step(table, tokens, c)
      case Finished =>
      case Failed(_) =>
      case Moved(next, a) =>
        RunKeepsDiscipline(table, tokens, next, fuel - 1);
        var out := Run(table, tokens, next, fuel - 1);
        if out.Accepted? {
          var t := [a] + out.trace;
          assert t[0] == a && t[1..] == out.trace;
        }
    }
  }

  /** parse from state 0: an accepted run keeps state 0 at the bottom, has
      read exactly as many tokens as it shifted, and leaves 1 + the total
      growth entries on the stack. */
  lemma ParseDiscipline(table: LRTable, tokens: seq<string>, fuel: nat)
    requires Parse(table, tokens, fuel).Accepted?
    ensures var out := Parse(table, tokens, fuel);
      && Alternating(out.final.stack)
      && out.final.stack[0] == StateEntry(0)
      && |out.final.stack| == 1 + TotalGrowth(out.trace)
      && out.final.cursor == Shifts(out.trace) <= |tokens|
  {
    RunKeepsDiscipline(table, tokens, Start(), fuel);
  }
}

=== FILE: symbols.dfy ===
/** Grammar symbols, productions and the marks that populate FIRST sets,
    FOLLOW sets and table columns. */
module Symbols {

  /** A grammar symbol: the tag replaces the source's "is this name a
      declared terminal" test. */
  datatype Symbol = Terminal(name: string) | NonTerminal(name: string)

  /** An element of a FIRST set, a FOLLOW set or a table column: a real
      token, the empty-string marker `epsilon`, or the end marker `$`. */
  datatype Mark = Tok(name: string) | Epsilon | EndMarker

  /** A production `lhs -> rhs`; the empty right-hand side is the epsilon
      production. */
  datatype Production = Production(lhs: string, rhs: seq<Symbol>)

  /** A family of sets indexed by nonterminal name, kept as a relation:
      `(A, m) in R` means that `m` belongs to the set of `A`. */
  type Rel = set<(string, Mark)>

  /** The set that `R` assigns to `a`. */
  function Image(R: Rel, a: string): (s: set<Mark>)
    ensures forall m :: m in s <==> (a, m) in R
  {
    set p | p in R && p.0 == a :: p.1
  }

  /** The lookahead at position `i` of a token sequence: the token there,
      or the end marker once every token has been read. */
  function Lookahead(tokens: seq<string>, i: nat): (m: Mark)
    ensures m == EndMarker <==> i >= |tokens|
    ensures i < |tokens| ==> m == Tok(tokens[i])
  {
    if i < |tokens| then Tok(tokens[i]) else EndMarker
  }

  /** Every mark mentioned by `R`, whichever nonterminal it belongs to. */
  function Marks(R: Rel): (s: set<Mark>)
    ensures forall a, m :: (a, m) in R ==> m in s
  {
    set p | p in R :: p.1
  }

  /** The tokens that occur literally in `alpha`. */
  function TokensOf(alpha: seq<Symbol>): (s: set<Mark>)
    ensures forall i :: 0 <= i < |alpha| && alpha[i].Terminal? ==> Tok(alpha[i].name) in s
    ensures forall m :: m in s ==> m.Tok?
  {
    set i | 0 <= i < |alpha| && alpha[i].Terminal? :: Tok(alpha[i].name)
  }

  /** A suffix mentions no token its whole sequence does not. */
  lemma TokensOfSuffix(alpha: seq<Symbol>, k: nat)
    requires k <= |alpha|
    ensures TokensOf(alpha[k..]) <= TokensOf(alpha)
  {
    forall m | m in TokensOf(alpha[k..])
      ensures m in TokensOf(alpha)
    {
      var i :| 0 <= i < |alpha[k..]| && alpha[k..][i].Terminal? && m == Tok(alpha[k..][i].name);
      assert alpha[k + i] == alpha[k..][i];
    }
  }
}

=== FILE: wrappers.dfy ===
/** Optional values and results with an error, used for the optional start
    symbol, table cells and every error path of the analyses and parsers. */
module Wrappers {

  datatype Option<+T> = None | Some(value: T)

  datatype Result<+T, +E> = Success(value: T) | Failure(error: E)
}
